=== FILE: README.md ===
# Template variable tracking and shape inference, in Dafny

This project models the analysis core of `cleanplate`. Given the syntax tree of a
MiniJinja template, it infers which top-level names the caller must supply
(*external* variables), which names the template defines itself (*internal*
variables), which names are `for`-loop variables and what they iterate over, and
the nested shape of the data each external name is accessed through. A shape is
an object of fields, a one-element array (the representative element of an
iterated collection), or the `""` leaf.

The core runs in two stages, and the model keeps them apart:

- **Access tracker** (`tracker.dfy`, `names.dfy`). `VariableTracker` is an
  immutable record of sets and maps. `TrackAccess` is one state transition per
  variable-touch event (`Read`, `Set`, `SetAlias(target)`, `LoopVar(iterable)`).
  It ignores the empty name, `loop` and `loop.*`. It logs the access and records
  parent→attribute edges for dotted names, split at the last dot. When the parent
  is a loop variable, the edge goes to that variable's iterable. The name is
  classified only on its first access. `Run` folds `TrackAccess` over an event
  sequence.
- **Shape builder** (`aliases.dfy`, `shapes.dfy`, `analysis.dfy`).
  `ResolveAliasChain` follows alias edges with a visited set, so it stops on
  cyclic alias maps. `FindIteratedVar` decides whether a resolved name is
  iterated. `BuildObjectFromAttrs` rebuilds nested objects from the flattened
  attribute map; it terminates because every recursive key is strictly longer
  and is a key of that finite map. `BuildNestedObject` emits one entry per
  external name.
- **Tree walk** (`walk.dfy`). A small syntax tree of our own stands in for the
  parser's. The walk is written as the event sequence it emits, and `Analyze`
  runs a fresh tracker over those events and converts the final state.
- **Scenarios** (`scenarios.dfy`). The repository's unit tests, plus the alias
  case and the empty template, are stated as lemmas about concrete trees.

Where the code differs from an idealised reading of it, the model follows the
code:

- The two-level back-fill of a deep dotted name goes into `var_hierarchy` only,
  never into `object_attrs`. It inserts everything after the parent's first
  dot, not one segment (`Tracker.TrackHierarchyBackfill`). `var_hierarchy` is
  never read by the builder.
- A name first set locally can still become external. A dotted read `u.email`
  whose first segment `u` is not a loop variable adds `u` to the external set,
  even after `{% set u = user %}`. `Scenarios.AliasedVariable` proves the
  template gives external `{user, u}` and internal `{u}`. So internal and
  external names may overlap.
- External detection is complete but not exclusive. In every reachable state
  (`Tracker.RunValid`), every external name is the base of some name whose
  first access was a read. Conversely, the base of every name first read is
  external unless the base is a loop variable. What fails for the tracker on
  its own is "external implies not a loop variable". The event sequence
  `Read("x.a")` then `LoopVar` for `x`, with no read of `x` in between, makes
  `x` both (`Scenarios.ExternalLoopVariableOverlap`). For dot-free identifiers,
  the only ones the parser produces, the tree walk does not produce that
  sequence: an attribute read is always followed by a read of
  its base variable (src/lib.rs:480). So in `{{ x.a }}{% for x in items %}`
  the loop binding of `x` is a repeated access and binds nothing
  (`Scenarios.ReadBeforeLoopBindsNothing`).
- Alias resolution does not return "the last name before any repeat". The
  loop never marks its start as visited, so a cycle through the start comes
  back to it, and the start is returned: on `x→a, a→x`, `x` resolves to `x`
  and `a` to `a` (`Scenarios.TwoCycleResolvesToStart`). On a cycle that does
  not pass through the start, the result is the last name before the first
  revisit (`Scenarios.CyclicAliasStopsAtFirstRevisit`).
- The external set can contain the empty string: a read of `.x` has an empty
  base. The model proves only that no external name is `loop` or contains a dot.

## Model

| member | source | states |
|---|---|---|
| `Names.LastDot` | src/lib.rs:129 | the position of the last dot, with no dot after it; `None` exactly when the name has no dot |
| `Names.FirstDot` | src/lib.rs:140 | the position of the first dot, with no dot before it; `None` exactly when the name has no dot |
| `Names.SplitLast` | src/lib.rs:129-131 | a dotted name is `parent + "." + attr` with a dot-free `attr`; `None` exactly for undotted names |
| `Names.SplitLastOfJoin` | src/lib.rs:129-131 | splitting `parent.attr` at its last dot gives back `parent` and a dot-free `attr` |
| `Names.BaseName` | src/lib.rs:172 | the base is a dot-free prefix of the name, either the whole name or followed by a dot |
| `Names.BaseNameOfJoin` | src/lib.rs:172 | the base name of `base.rest` is `base` for any dot-free `base` |
| `Tracker.AddAttr` | src/lib.rs:150-159 | inserting an attribute creates the entry if absent, adds to it, and leaves every other entry unchanged |
| `Tracker.New` | src/lib.rs:87-99 | the empty tracker satisfies the tracker invariant |
| `Tracker.TrackAccess` | src/lib.rs:101-195 | ignored names change nothing. Otherwise the access is logged. Undotted names leave both attribute maps alone. A repeated name changes no classification. A first access classifies by kind: a read adds its base to the external set unless the base is a loop variable; set, alias and loop-variable accesses add the name to the internal set; an alias also records `target → name`, and a loop variable records `name → iterable` |
| `Tracker.TrackAttributeEdge` | src/lib.rs:148-160 | a read of `parent.attr` adds `attr` under the parent's iterable if the parent is a loop variable, else under the parent; no other attribute entry changes |
| `Tracker.TrackHierarchyBackfill` | src/lib.rs:133-146 | `base.rest.attr` records `attr` under `base.rest`, and everything after the first dot, `rest`, under `base`, in the hierarchy map |
| `Tracker.RunValid` | src/lib.rs:163-194 | along any run from a valid state: no reserved name is ever recorded; the internal names are exactly the names first accessed by a non-read; loop bindings are exactly the loop-variable first accesses; every alias entry points to the name whose first access was that alias; every external name is the base of a name first read; and the base of every name first read is external unless it is a loop variable |
| `Tracker.RunExtends` | src/lib.rs:164 | along any run, first accesses and loop bindings never change, and the external set, internal set, alias targets, attribute sets and log only grow |
| `Tracker.RunAppend` | src/lib.rs:101 | tracking two event sequences one after the other equals tracking their concatenation |
| `Tracker.RepeatedAccessesKeepClassification` | src/lib.rs:164 | accesses to names already seen leave every classification and every first access unchanged |
| `Aliases.ResolveFrom` | src/lib.rs:269-276 | the loop result is reached by following alias edges, within as many steps as there are unvisited alias targets. The names passed on the way are pairwise distinct and none was visited before. The loop stops at the first name that has no alias, or whose next alias was already visited. A name with no alias is returned unchanged |
| `Aliases.StopsUnique` | src/lib.rs:269-276 | a walk stops at only one step and one name, so the contract of `ResolveFrom` determines its result: on `x→a, a→b, b→a` it admits only `b` |
| `Aliases.ResolveAliasChain` | src/lib.rs:265-279 | the result is reachable from the input within as many steps as there are alias targets. It is the last name before the chain ends or an alias step reaches a name that an earlier step reached. The start counts only once a step reaches it, so `x→a, a→x` resolves `x` to `x`. A name without an alias resolves to itself |
| `Scenarios.TwoCycleResolvesToStart` | src/lib.rs:265-279 | on `x→a, a→x` each name resolves to itself, because the start is never marked visited |
| `Aliases.ResolveIdempotent` | src/lib.rs:265-279 | resolving a resolved name gives it back, on every alias map including cyclic ones |
| `Aliases.StopOnCycleReturns` | src/lib.rs:269-276 | when the loop stops at a name that has an alias, it stopped on a cycle, and the loop started from that name goes round the cycle and stops at the name itself |
| `Aliases.ResolveAcyclicEnds` | src/lib.rs:269-276 | on an alias chain that never revisits a name, resolution runs to a name with no alias |
| `Shapes.FindIteratedVar` | src/lib.rs:282-297 | the result is `None` or the name itself; it is `Some` exactly when the name is a loop iterable or the alias resolution of one |
| `Shapes.IteratedLiesOnIterableChain` | src/lib.rs:282-297 | a name found iterated lies on the alias chain of some loop iterable, at most as many steps away as there are alias targets |
| `Shapes.FindCorrespondingLoopVar` | src/lib.rs:343-352 | returns a loop variable bound to exactly the given path, and returns one whenever one exists |
| `Shapes.BuildObjectFromAttrs` | src/lib.rs:300-340 | an object whose keys are exactly the recorded attributes (none for an absent key). A field is `""` exactly when `key.a` has no attributes. Otherwise it is a one-element array exactly when some loop iterates over `key.a` or `a` is `tool_calls`. Nested objects carry exactly `key.a`'s attributes |
| `Shapes.BuildShaped` | src/lib.rs:300-340 | the built object obeys the leaf / array / object rule at every depth. A `tool_calls` field or a looped path deep inside, such as `messages[0].tool_calls`, is wrapped as well |
| `Shapes.ShapedIsBuilt` | src/lib.rs:300-340 | any shape that obeys the rule at every depth for a key is the built object, so the rule determines the builder |
| `Shapes.AttributeShape` | src/lib.rs:305-335 | one attribute's field obeys the same leaf / array / object rule as in `BuildObjectFromAttrs` |
| `Shapes.BuildObjectPaths` | src/lib.rs:300-340 | the field paths of the built object are exactly the attribute chains the flattened map records below the key |
| `Shapes.BuildNestedObject` | src/lib.rs:233-262 | the result is an object whose keys are exactly the external names |
| `Shapes.ExternalShapeKind` | src/lib.rs:244-258 | an entry is an array iff its resolved name is iterated. The array is empty iff that name also has no attributes; otherwise it holds one object with the name's attributes. An object iff not iterated and attributes exist. `""` otherwise. The array's element, or the object, is exactly the object built for the resolved name |
| `Shapes.ExternalShapePaths` | src/lib.rs:237-258 | each external entry's field paths are exactly the attribute chains recorded for the name it resolves to |
| `Analysis.ToAnalysis` | src/lib.rs:197-220 | the result carries the tracker's external set, internal set and loop bindings, and a shape keyed by exactly the external names |
| `Analysis.AnalysisHasNoLoopNames` | src/lib.rs:103-110 | in every reachable state, `loop` and `loop.*` are not external, not shape keys, not internal and not loop variables |
| `Analysis.EmptyRunIsEmpty` | src/lib.rs:197-220 | with no events, all sets and bindings are empty and the shape is the empty object |
| `Walk.GetAttributePath` | src/lib.rs:581-594 | a variable's path is its identifier; an attribute lookup has a path exactly when its base has one; every other node has the empty path |
| `Walk.AttributePathSplits` | src/lib.rs:584-590 | splitting an attribute lookup's path at the last dot gives back the base's path and the attribute name |
| `Walk.AttributePathBase` | src/lib.rs:581-594 | a non-empty path starts at a variable, and its base name is that variable's identifier |
| `Walk.ExprEvents` | src/lib.rs:466-578 | walking an expression emits only read events, so an expression defines nothing |
| `Walk.ReadsDefineNothing` | src/lib.rs:170-180 | a run of reads never changes the internal set, loop bindings or aliases |
| `Walk.StmtEvents` | src/lib.rs:354-463 | the names carried by the set, alias and loop-variable events that the statement walk emits (`Defs`) are exactly the tree's assignment targets (`StmtTargets`). Those targets are loop targets, or the `loop_var` fallback; `set` and set-block targets; and `with` targets, at any depth. Every target is tracked and nothing else is defined |
| `Walk.StmtsEvents` | src/lib.rs:354-463 | the same exact correspondence for a statement list: its defined names are the union of its statements' targets |
| `Walk.AssignmentsEvents` | src/lib.rs:405-413 | the names the `with` assignments define are exactly their targets; their values only read |
| `Walk.DefsConcat` | src/lib.rs:354-463 | the names defined by two event runs in sequence are the union of the names each defines |
| `Walk.TargetDefs` | src/lib.rs:424-440 | assigning to a target slot defines exactly the slot's name, and nothing when the slot is empty |
| `Walk.RunDefinesOnly` | src/lib.rs:181-192 | tracking a run of events adds to the internal set and the loop bindings only the names of its set, alias and loop-variable events |
| `Walk.Analyze` | src/lib.rs:16-51 | every internal name and every loop variable of an analysed template is a name the tree assigns to, and the shape has exactly one entry per external name |
| `Walk.ExprReads` | src/lib.rs:466-578 | the names an expression's walk reads are exactly those of the nodes it visits (`Visited`): variable identifiers, full attribute paths and `v.k` for `v["k"]`. Nothing is missed and nothing is invented |
| `Walk.AnalyzeValid` | src/lib.rs:16-51 | the final tracker state of every walked template satisfies the tracker invariant |
| `Scenarios.ExternalVariableDetection` | src/lib.rs:655-660 | `{{ user.name }}` gives external `{user}` and shape `{"user": {"name": ""}}` |
| `Scenarios.InternalVariableDetection` | src/lib.rs:662-668 | `{% set title = 'Hello' %}{{ title }}` makes `title` internal and not external |
| `Scenarios.LoopVariableDetection` | src/lib.rs:670-691 | `{% for item in items %}{{ item.name }}{% endfor %}` binds `item` to `items`, gives external `{items}`, and the shape `{"items": [{"name": ""}]}` |
| `Scenarios.AliasedVariable` | src/lib.rs:420-435 | `{% set u = user %}{{ u.email }}` gives external `{user, u}`, internal `{u}`, and `{"email": ""}` under both names |
| `Scenarios.CyclicAliasStopsAtFirstRevisit` | src/lib.rs:269-276 | for distinct `x`, `a`, `b`, resolving `x` through `x→a, a→b, b→a` gives `b` |
| `Scenarios.ExternalLoopVariableOverlap` | src/lib.rs:163-191 | on a fresh tracker, reading `x.a` and then binding `x` as a loop variable leaves `x` both external and bound to its iterable |
| `Scenarios.ReadBeforeLoopBindsNothing` | src/lib.rs:472-481 | in `{{ x.a }}{% for x in items %}{% endfor %}` the walk reads `x` itself before the loop, so `x` is external and the loop binds no variable |
| `Scenarios.EmptyTemplate` | src/lib.rs:354-463 | a template with no variable references gives empty sets, no bindings and an empty shape |

## Left out

- Parsing template text (`machinery::parse`, src/lib.rs:25-30) is left out. It is a foreign parser and the only error source. The model starts from a syntax tree, so `Analyze` cannot fail.
- Extracting names from debug-printed AST nodes is left out (`extract_var_name` and `extract_vars_from_debug_str`, src/lib.rs:596-649). Its result depends on the parser library's `Debug` format. Assignment and loop targets arrive as `Option<string>`, with the source's fallback `loop_var` for loops.
- Call, filter and test arguments carry no data in the model. Their reads were scraped from debug text in the source. The walk still visits the callee, the filtered value and the tested value.
- The `verbose` flag and its `eprintln!` tracing (src/lib.rs:20-22, 42-48, 114-123) are diagnostic output only.
- `serde_json` values and hash-map iteration order are not modelled. Sets and maps stand in for them, so a result cannot depend on iteration order.
- `Shapes.FindCorrespondingLoopVar`: which of several matching loop variables it returns is left unspecified, because the source's hash-map order makes that choice arbitrary. The builder only asks whether one exists.
- `src/main.rs`, `examples/extract.rs` and `scripts/dump-templates.py` are not part of this model. They hold CLI parsing, file and network I/O, JSON reports, frequency counts and floating-point coverage figures.

=== FILE: aliases.dfy ===
/**
  Alias resolution (src/lib.rs:264-279). `objectAliases` maps the variable on
  the right of `{% set x = y %}` to the name `x` that aliases it; resolution
  follows those edges with a visited set, so it stops on cyclic maps.
 */
module Aliases {
  import opened Options

  /** The name reached after exactly `k` alias steps from `x`, if the chain is that long. */
  ghost function Follow(aliases: map<string, string>, x: string, k: nat): Option<string>
    decreases k
  {
    if k == 0 then Some(x)
    else if x in aliases then Follow(aliases, aliases[x], k - 1)
    else None
  }

  /**
    `r` is reached from `start` in `k` steps, the names reached at steps
    1..k are pairwise distinct and none was visited before, and the walk
    stops at `r` for the source's reason: `r` has no alias, or its alias was
    already visited (it is in `visited` or was reached at one of steps 1..k).
    So `r` is the last name before the first revisit.
   */
  ghost predicate StopsAt(aliases: map<string, string>, start: string, visited: set<string>, r: string, k: nat) {
    && Follow(aliases, start, k) == Some(r)
    && (forall i :: 1 <= i <= k ==> Follow(aliases, start, i).Some? && Follow(aliases, start, i).value !in visited)
    && (forall i, j :: 1 <= i < j <= k ==> Follow(aliases, start, i) != Follow(aliases, start, j))
    && (r in aliases ==>
          || aliases[r] in visited
          || exists j :: 1 <= j <= k && Follow(aliases, start, j) == Some(aliases[r]))
  }

  /**
    The `while let` loop of `resolve_alias_chain` from name `current` with
    `visited` already collected. Each step adds an alias target not yet
    visited, so the number of unvisited targets measures termination.
   */
  function ResolveFrom(aliases: map<string, string>, current: string, visited: set<string>): (r: string)
    ensures current !in aliases ==> r == current
    ensures exists k: nat :: k <= |aliases.Values - visited| && StopsAt(aliases, current, visited, r, k)
    decreases |aliases.Values - visited|
  {
    if current !in aliases then
      assert StopsAt(aliases, current, visited, current, 0);
      current
    else
      var next := aliases[current];
      if next in visited then
        assert StopsAt(aliases, current, visited, current, 0);
        current
      else
        assert aliases.Values - (visited + {next}) == (aliases.Values - visited) - {next};
        var r := ResolveFrom(aliases, next, visited + {next});
        ShiftStops(aliases, current, visited, r);
        r
  }

  lemma ShiftStops(aliases: map<string, string>, current: string, visited: set<string>, r: string)
    requires current in aliases && aliases[current] !in visited
    requires aliases.Values - (visited + {aliases[current]}) == (aliases.Values - visited) - {aliases[current]}
    requires exists k: nat :: k <= |aliases.Values - (visited + {aliases[current]})|
                         && StopsAt(aliases, aliases[current], visited + {aliases[current]}, r, k)
    ensures exists k: nat :: k <= |aliases.Values - visited| && StopsAt(aliases, current, visited, r, k)
  {
    var next := aliases[current];
    var k: nat :| k <= |aliases.Values - (visited + {next})| && StopsAt(aliases, next, visited + {next}, r, k);
    ShiftStop(aliases, current, visited, r, k);
    assert next in aliases.Values - visited;
  }

  /** One alias step prepended to a stopped walk is a stopped walk one step longer. */
  lemma ShiftStop(aliases: map<string, string>, current: string, visited: set<string>, r: string, k: nat)
    requires current in aliases && aliases[current] !in visited
    requires StopsAt(aliases, aliases[current], visited + {aliases[current]}, r, k)
    ensures StopsAt(aliases, current, visited, r, k + 1)
  {
    var next := aliases[current];
    assert Follow(aliases, current, 1) == Some(next);
    forall i | 1 <= i <= k + 1
      ensures Follow(aliases, current, i).Some? && Follow(aliases, current, i).value !in visited
    {
      if i > 1 {
        assert Follow(aliases, current, i) == Follow(aliases, next, i - 1);
      }
    }
    forall i, j | 1 <= i < j <= k + 1
      ensures Follow(aliases, current, i) != Follow(aliases, current, j)
    {
      assert Follow(aliases, current, j) == Follow(aliases, next, j - 1);
      if i > 1 {
        assert Follow(aliases, current, i) == Follow(aliases, next, i - 1);
      }
    }
    assert Follow(aliases, current, k + 1) == Follow(aliases, next, k);
    if r in aliases && aliases[r] !in visited {
      if aliases[r] == next {
      } else {
        var j :| 1 <= j <= k && Follow(aliases, next, j) == Some(aliases[r]);
        assert Follow(aliases, current, j + 1) == Follow(aliases, next, j);
      }
    }
  }

  /**
    `resolve_alias_chain` (src/lib.rs:265-279): the last name reached by
    following alias edges from `v` before the chain ends or an alias step
    reaches a name that an earlier step reached. The start is never marked
    visited, so it counts only once a step reaches it: on `x -> a, a -> x`,
    `x` resolves to `x` and `a` to `a`.
   */
  function ResolveAliasChain(aliases: map<string, string>, v: string): (r: string)
    ensures v !in aliases ==> r == v
    ensures exists k: nat :: k <= |aliases.Values| && StopsAt(aliases, v, {}, r, k)
  {
    assert aliases.Values - {} == aliases.Values;
    ResolveFrom(aliases, v, {})
  }

  /** The alias chain from `x` never visits a name twice. */
  ghost predicate Acyclic(aliases: map<string, string>, x: string) {
    forall i: nat, j: nat :: i < j && Follow(aliases, x, i).Some? ==> Follow(aliases, x, i) != Follow(aliases, x, j)
  }

  /**
    When the chain from `v` never revisits a name, resolution runs to its end:
    the result has no alias of its own.
   */
  lemma ResolveAcyclicEnds(aliases: map<string, string>, v: string)
    requires Acyclic(aliases, v)
    ensures ResolveAliasChain(aliases, v) !in aliases
  {
    var r := ResolveAliasChain(aliases, v);
    var k: nat :| k <= |aliases.Values| && StopsAt(aliases, v, {}, r, k);
    if r in aliases {
      var j :| 1 <= j <= k && Follow(aliases, v, j) == Some(aliases[r]);
      FollowNext(aliases, v, k);
      assert false;
    }
  }

  /**
    The stopping point is unique: a walk from `start` can stop at only one
    step and one name, so the contract of `ResolveFrom` determines its result.
   */
  lemma StopsUnique(aliases: map<string, string>, start: string, visited: set<string>,
                    r1: string, k1: nat, r2: string, k2: nat)
    requires StopsAt(aliases, start, visited, r1, k1)
    requires StopsAt(aliases, start, visited, r2, k2)
    ensures k1 == k2 && r1 == r2
  {
    StopsBeforeEnd(aliases, start, visited, r1, k1, k2);
    StopsBeforeEnd(aliases, start, visited, r2, k2, k1);
  }

  /** A walk that stops at step `k` is not outlasted by a walk obeying the same rules. */
  lemma StopsBeforeEnd(aliases: map<string, string>, start: string, visited: set<string>,
                       r: string, k: nat, k': nat)
    requires StopsAt(aliases, start, visited, r, k)
    requires forall i :: 1 <= i <= k' ==> Follow(aliases, start, i).Some? && Follow(aliases, start, i).value !in visited
    requires forall i, j :: 1 <= i < j <= k' ==> Follow(aliases, start, i) != Follow(aliases, start, j)
    ensures k' <= k
  {
    if k < k' {
      FollowNext(aliases, start, k);
      assert false;
    }
  }

  /**
    From a name reached at step `k` there is a step `k + 1` exactly when that
    name has an alias, and the step follows its alias edge.
   */
  lemma {:induction false} FollowNext(aliases: map<string, string>, x: string, k: nat)
    requires Follow(aliases, x, k).Some?
    ensures Follow(aliases, x, k + 1).Some? <==> Follow(aliases, x, k).value in aliases
    ensures Follow(aliases, x, k).value in aliases ==> Follow(aliases, x, k + 1) == Some(aliases[Follow(aliases, x, k).value])
    decreases k
  {
    if k > 0 {
      FollowNext(aliases, aliases[x], k - 1);
    }
  }

  /** Following `i + j` steps is following `i` steps, then `j` more from there. */
  lemma {:induction false} FollowAdd(aliases: map<string, string>, x: string, i: nat, j: nat)
    requires Follow(aliases, x, i).Some?
    ensures Follow(aliases, x, i + j) == Follow(aliases, Follow(aliases, x, i).value, j)
    decreases i
  {
    if i > 0 {
      FollowAdd(aliases, aliases[x], i - 1, j);
    }
  }

  /**
    Resolution is idempotent on every alias map, cyclic ones included: the
    resolved name resolves to itself. On a cycle, the walk from the result
    goes round the cycle once and stops back at it.
   */
  lemma ResolveIdempotent(aliases: map<string, string>, v: string)
    ensures ResolveAliasChain(aliases, ResolveAliasChain(aliases, v)) == ResolveAliasChain(aliases, v)
  {
    var r := ResolveAliasChain(aliases, v);
    if r in aliases {
      var k: nat :| k <= |aliases.Values| && StopsAt(aliases, v, {}, r, k);
      var len := StopOnCycleReturns(aliases, v, r, k);
      var r2 := ResolveAliasChain(aliases, r);
      var k2: nat :| k2 <= |aliases.Values| && StopsAt(aliases, r, {}, r2, k2);
      StopsUnique(aliases, r, {}, r, len, r2, k2);
    }
  }

  /**
    A walk that stops at a name with an alias stopped because that alias was
    reached before, at some step `j`: so the walk from the stopping name runs
    round the same cycle and stops at itself after `k - j + 1` steps.
   */
  lemma StopOnCycleReturns(aliases: map<string, string>, v: string, r: string, k: nat) returns (len: nat)
    requires StopsAt(aliases, v, {}, r, k) && r in aliases
    ensures StopsAt(aliases, r, {}, r, len)
  {
    var j :| 1 <= j <= k && Follow(aliases, v, j) == Some(aliases[r]);
    len := k - j + 1;
    assert Follow(aliases, r, 1) == Some(aliases[r]);
    forall i | 1 <= i <= len
      ensures Follow(aliases, r, i) == Follow(aliases, v, j + i - 1)
    {
      FollowAdd(aliases, r, 1, i - 1);
      FollowAdd(aliases, v, j, i - 1);
    }
    assert Follow(aliases, r, len) == Some(r);
    assert forall i, i' :: 1 <= i < i' <= len ==> Follow(aliases, r, i) != Follow(aliases, r, i') by {
      forall i, i' | 1 <= i < i' <= len
        ensures Follow(aliases, r, i) != Follow(aliases, r, i')
      {
        assert Follow(aliases, r, i) == Follow(aliases, v, j + i - 1);
        assert Follow(aliases, r, i') == Follow(aliases, v, j + i' - 1);
      }
    }
    assert Follow(aliases, r, 1) == Some(aliases[r]);
  }
}

=== FILE: analysis.dfy ===
/**
  The analysis result and `VariableTracker::to_analysis` (src/lib.rs:6-13,
  197-220): the classification sets and loop bindings of the final tracker
  state together with the shape built from it.
 */
module Analysis {
  import opened Names
  import opened Tracker
  import opened Shapes

  /** `TemplateAnalysis`; the shape is the JSON object of the source as a `Shape`. */
  datatype TemplateAnalysis = TemplateAnalysis(
    externalVars: set<string>,
    internalVars: set<string>,
    loopVars: map<string, string>,
    objectShapes: Shape)

  /** The builder's view of a tracker state. */
  function DataOf(t: VariableTracker): TemplateData {
    TemplateData(t.internalVars, t.externalVars, t.loopVars, t.objectAttrs, t.objectAliases)
  }

  /** `to_analysis`: the shape has one top-level entry per external variable. */
  function ToAnalysis(t: VariableTracker): (r: TemplateAnalysis)
    ensures r.externalVars == t.externalVars
    ensures r.internalVars == t.internalVars
    ensures r.loopVars == t.loopVars
    ensures r.objectShapes.Obj? && r.objectShapes.fields.Keys == t.externalVars
  {
    TemplateAnalysis(t.externalVars, t.internalVars, t.loopVars, BuildNestedObject(DataOf(t)))
  }

  /**
    For every state the tracker reaches, no output set, no loop binding and
    no top-level shape key is `loop` or a `loop.` name.
   */
  lemma AnalysisHasNoLoopNames(t: VariableTracker)
    requires Valid(t)
    ensures var r := ToAnalysis(t);
            && LoopKeyword !in r.externalVars
            && LoopKeyword !in r.objectShapes.fields
            && (forall x :: x in r.externalVars ==> !(LoopKeyword + [Dot] <= x))
            && (forall n :: n in r.internalVars ==> !Ignored(n))
            && (forall n :: n in r.loopVars ==> !Ignored(n))
  {
    ValidHasNoLoopNames(t);
  }

  /** No events: every set, every binding and the shape are empty (the zero-reference boundary case). */
  lemma EmptyRunIsEmpty()
    ensures var r := ToAnalysis(Run(New(), []));
            && r.externalVars == {}
            && r.internalVars == {}
            && r.loopVars == map[]
            && r.objectShapes == Obj(map[])
  {
  }
}

=== FILE: names.dfy ===
/**
  Dotted variable names such as `user.profile.email`: finding dots, splitting a
  name at its last dot, taking its base segment, and recognising the reserved
  `loop` names the tracker never records (src/lib.rs:103-110, 129-146, 172).
  Names are sequences of characters. The dot is ASCII and never part of a
  multi-byte character, so splitting at a dot yields the same strings whether
  offsets count bytes, as the source does, or characters, as here.
 */
module Names {
  import opened Options

  /** The separator between the segments of a dotted name. */
  const Dot: char := '.'

  /** Jinja's loop-context variable, which the tracker ignores. */
  const LoopKeyword: string := "loop"

  /** `s` contains no dot. */
  predicate NoDot(s: string) {
    forall j :: 0 <= j < |s| ==> s[j] != Dot
  }

  /** Position of the last dot of `s`, as Rust's `str::rfind('.')`. */
  function LastDot(s: string): (r: Option<nat>)
    ensures r.None? <==> NoDot(s)
    ensures r.Some? ==> r.value < |s| && s[r.value] == Dot
    ensures r.Some? ==> NoDot(s[r.value + 1..])
    decreases |s|
  {
    if |s| == 0 then None
    else if s[|s| - 1] == Dot then Some(|s| - 1)
    else
      var r := LastDot(s[..|s| - 1]);
      assert r.Some? ==> s[r.value + 1..] == s[..|s| - 1][r.value + 1..] + [s[|s| - 1]];
      r
  }

  /** Position of the first dot of `s`, as Rust's `str::find('.')`. */
  function FirstDot(s: string): (r: Option<nat>)
    ensures r.None? <==> NoDot(s)
    ensures r.Some? ==> r.value < |s| && s[r.value] == Dot
    ensures r.Some? ==> NoDot(s[..r.value])
    decreases |s|
  {
    if |s| == 0 then None
    else if s[0] == Dot then Some(0)
    else
      match FirstDot(s[1..])
      case None => None
      case Some(i) => Some(i + 1)
  }

  /**
    Splits a dotted name at its last dot into `(parent, attribute)`, dropping
    the dot itself (src/lib.rs:129-131); `None` when the name has no dot.
   */
  function SplitLast(name: string): (r: Option<(string, string)>)
    ensures r.None? <==> NoDot(name)
    ensures r.Some? ==> name == r.value.0 + [Dot] + r.value.1
    ensures r.Some? ==> NoDot(r.value.1)
  {
    match LastDot(name)
    case None => None
    case Some(i) =>
      assert name == name[..i] + [Dot] + name[i + 1..];
      Some((name[..i], name[i + 1..]))
  }

  /** Joining a parent and a dot-free attribute and splitting again gives both back. */
  lemma SplitLastOfJoin(parent: string, attr: string)
    requires NoDot(attr)
    ensures SplitLast(parent + [Dot] + attr) == Some((parent, attr))
  {
    var name := parent + [Dot] + attr;
    assert name[|parent|] == Dot;
    var r := LastDot(name);
    assert r.Some?;
    var i := r.value;
    assert i == |parent|;
    assert name[..i] == parent;
    assert name[i + 1..] == attr;
  }

  /**
    The base segment of a name: everything before its first dot, or the whole
    name when it has none (`var_name.split('.').next()`, src/lib.rs:172).
   */
  function BaseName(name: string): (r: string)
    ensures NoDot(r)
    ensures r <= name
    ensures r == name || name[|r|] == Dot
  {
    match FirstDot(name)
    case None => name
    case Some(i) => name[..i]
  }

  /** The base name of `base.rest` is `base` whenever `base` has no dot. */
  lemma BaseNameOfJoin(base: string, rest: string)
    requires NoDot(base)
    ensures BaseName(base + [Dot] + rest) == base
  {
    var name := base + [Dot] + rest;
    assert name[|base|] == Dot;
    var i := FirstDot(name).value;
    assert NoDot(name[..i]);
    assert i == |base|;
  }

  /** A name with no dot is its own base name. */
  lemma BaseNameOfPlain(name: string)
    requires NoDot(name)
    ensures BaseName(name) == name
  {
  }

  /**
    The names the tracker never records: the empty name, `loop`, and anything
    starting with `loop.` (src/lib.rs:103-110).
   */
  predicate Ignored(name: string) {
    name == [] || name == LoopKeyword || LoopKeyword + [Dot] <= name
  }

  /** A name that is not ignored has a base name other than `loop`. */
  lemma BaseNameNotLoop(name: string)
    requires !Ignored(name)
    ensures BaseName(name) != LoopKeyword
  {
  }
}

=== FILE: options.dfy ===
/** The optional-value type used across the model (Rust's `Option`). */
module Options {

  datatype Option<+T> = None | Some(value: T) {

    /** The value held, or `default` when there is none (Rust's `unwrap_or`). */
    function GetOr(default: T): T {
      match this
      case Some(v) => v
      case None => default
    }
  }
}

=== FILE: scenarios.dfy ===
/**
  The unit tests of src/lib.rs:655-691 and two further cases (an alias, the
  empty template), stated as lemmas over concrete syntax trees.
 */
module Scenarios {
  import opened Options
  import opened Names
  import opened Tracker
  import opened Aliases
  import opened Shapes
  import opened Analysis
  import opened Walk

  /** A non-empty name that does not start with `l` is never ignored. */
  lemma NotIgnored(name: string)
    requires |name| > 0 && name[0] != 'l'
    ensures !Ignored(name)
  {
    assert (LoopKeyword + [Dot])[0] == 'l';
  }

  // ---------------------------------------------------------------------
  // {{ user.name }}
  // ---------------------------------------------------------------------

  function UserNameTemplate(): Stmt {
    Template([EmitExpr(GetAttr(Var("user"), "name"))])
  }

  lemma UserNameEvents()
    ensures StmtEvents(UserNameTemplate()) == [Event("user.name", Read), Event("user", Read)]
  {
    assert GetAttributePath(GetAttr(Var("user"), "name")) == "user" + [Dot] + "name" == "user.name";
  }

  /** The tracker before any event, as far as the scenarios need it. */
  ghost predicate Fresh(t: VariableTracker) {
    && t.externalVars == {} && t.internalVars == {} && t.loopVars == map[]
    && t.objectAttrs == map[] && t.objectAliases == map[] && t.firstAccess == map[]
  }

  lemma RunTwo(t: VariableTracker, e1: Event, e2: Event)
    ensures Run(t, [e1, e2]) == TrackAccess(TrackAccess(t, e1.name, e1.access), e2.name, e2.access)
  {
    var t1 := TrackAccess(t, e1.name, e1.access);
    assert [e1, e2][1..] == [e2];
    assert Run(t1, [e2]) == Run(TrackAccess(t1, e2.name, e2.access), []);
  }

  /** The first event of `{{ v.a }}` on a fresh tracker. */
  lemma ReadAttrStep(t: VariableTracker, v: string, a: string)
    requires Fresh(t)
    requires NoDot(v) && NoDot(a) && !Ignored(v + [Dot] + a)
    ensures var t' := TrackAccess(t, v + [Dot] + a, Read);
            && t'.externalVars == {v}
            && t'.objectAttrs == map[v := {a}]
            && t'.loopVars == map[]
            && t'.objectAliases == map[]
            && v !in t'.firstAccess
  {
    TrackAttributeEdge(t, v, a, Read);
    BaseNameOfJoin(v, a);
    var t1 := TrackAccess(t, v + [Dot] + a, Read);
    assert t1.objectAttrs.Keys == {v} && t1.objectAttrs[v] == {a};
    assert |v + [Dot] + a| > |v|;
  }

  /**
    The tracker alone allows a name to be both external and a loop variable:
    a read of `x.a` with no read of `x` itself, then a loop binding of `x`.
    The tree walk never emits this pair, because every attribute read is
    followed by a read of its base variable (src/lib.rs:480), which makes
    the later loop binding a repeated access.
   */
  lemma ExternalLoopVariableOverlap(t: VariableTracker, x: string, a: string, iterable: string)
    requires Fresh(t)
    requires NoDot(x) && NoDot(a) && !Ignored(x) && !Ignored(x + [Dot] + a)
    ensures var t' := Run(t, [Event(x + [Dot] + a, Read), Event(x, LoopVar(iterable))]);
            x in t'.externalVars && x in t'.loopVars && t'.loopVars[x] == iterable
  {
    RunTwo(t, Event(x + [Dot] + a, Read), Event(x, LoopVar(iterable)));
    ReadAttrStep(t, x, a);
  }

  /** The second event of `{{ v.a }}`: the bare base read, already external. */
  lemma ReadBaseStep(t: VariableTracker, v: string)
    requires t.externalVars == {v} && v !in t.firstAccess
    requires !Ignored(v) && NoDot(v)
    ensures var t' := TrackAccess(t, v, Read);
            && t'.externalVars == t.externalVars
            && t'.objectAttrs == t.objectAttrs
            && t'.loopVars == t.loopVars
            && t'.objectAliases == t.objectAliases
  {
    BaseNameOfPlain(v);
  }

  lemma UserNameRun(t: VariableTracker)
    requires Fresh(t)
    ensures var t' := Run(t, [Event("user.name", Read), Event("user", Read)]);
            && t'.externalVars == {"user"}
            && t'.objectAttrs == map["user" := {"name"}]
            && t'.loopVars == map[]
            && t'.objectAliases == map[]
  {
    assert "user.name" == "user" + [Dot] + "name";
    NotIgnored("user.name");
    NotIgnored("user");
    ReadAttrStep(t, "user", "name");
    ReadBaseStep(TrackAccess(t, "user.name", Read), "user");
    RunTwo(t, Event("user.name", Read), Event("user", Read));
  }

  lemma UserNameShape(d: TemplateData)
    requires d.externalVars == {"user"} && d.objectAttrs == map["user" := {"name"}]
    requires d.loopVars == map[] && d.objectAliases == map[]
    ensures BuildNestedObject(d) == Obj(map["user" := Obj(map["name" := Leaf])])
  {
    var shape := BuildNestedObject(d);
    ExternalShapeKind(d, "user");
    var obj := shape.fields["user"];
    assert "user" + [Dot] + "name" !in d.objectAttrs;
    assert FieldAgrees(d, "user", "name", obj.fields["name"]);
    assert obj == Obj(map["name" := Leaf]);
  }

  /** `{{ user.name }}` makes `user` external with shape `{"user": {"name": ""}}` (src/lib.rs:655-660). */
  lemma ExternalVariableDetection()
    ensures Analyze(UserNameTemplate()).externalVars == {"user"}
    ensures Analyze(UserNameTemplate()).objectShapes == Obj(map["user" := Obj(map["name" := Leaf])])
  {
    UserNameEvents();
    UserNameRun(New());
    UserNameShape(DataOf(Run(New(), StmtEvents(UserNameTemplate()))));
  }

  // ---------------------------------------------------------------------
  // {% set title = 'Hello' %}{{ title }}
  // ---------------------------------------------------------------------

  function TitleTemplate(): Stmt {
    Template([SetStmt(Some("title"), Const(NonNumber("Hello"))), EmitExpr(Var("title"))])
  }

  /** A plain set of a dot-free name on a fresh tracker. */
  lemma SetStep(t: VariableTracker, n: string)
    requires Fresh(t) && !Ignored(n)
    ensures var t' := TrackAccess(t, n, Set);
            && t'.internalVars == {n}
            && t'.externalVars == {}
            && n in t'.firstAccess
  {
  }

  /** `title` is set before it is read, so it is internal and not external (src/lib.rs:662-668). */
  lemma InternalVariableDetection()
    ensures "title" in Analyze(TitleTemplate()).internalVars
    ensures "title" !in Analyze(TitleTemplate()).externalVars
  {
    var events := [Event("title", Set), Event("title", Read)];
    assert StmtEvents(TitleTemplate()) == events;
    NotIgnored("title");
    SetStep(New(), "title");
    RunTwo(New(), events[0], events[1]);
  }

  // ---------------------------------------------------------------------
  // {% for item in items %}{{ item.name }}{% endfor %}
  // ---------------------------------------------------------------------

  function LoopTemplate(): Stmt {
    Template([ForLoop(Some("item"), Var("items"), [EmitExpr(GetAttr(Var("item"), "name"))])])
  }

  lemma LoopEvents()
    ensures StmtEvents(LoopTemplate()) ==
      [Event("items", Read), Event("item", LoopVar("items")), Event("item.name", Read), Event("item", Read)]
  {
    assert GetAttributePath(GetAttr(Var("item"), "name")) == "item" + [Dot] + "name" == "item.name";
    var body := [EmitExpr(GetAttr(Var("item"), "name"))];
    assert StmtsEvents(body) == [Event("item.name", Read), Event("item", Read)];
  }

  lemma RunFour(t: VariableTracker, e1: Event, e2: Event, e3: Event, e4: Event)
    ensures Run(t, [e1, e2, e3, e4]) ==
      TrackAccess(TrackAccess(TrackAccess(TrackAccess(t, e1.name, e1.access), e2.name, e2.access), e3.name, e3.access), e4.name, e4.access)
  {
    RunAppend(t, [e1, e2], [e3, e4]);
    assert [e1, e2] + [e3, e4] == [e1, e2, e3, e4];
    RunTwo(t, e1, e2);
    RunTwo(Run(t, [e1, e2]), e3, e4);
  }

  /** `{{ v }}` then `{% for lv in v %}` on a fresh tracker. */
  lemma LoopHeaderSteps(t: VariableTracker, v: string, lv: string)
    requires Fresh(t)
    requires NoDot(v) && NoDot(lv) && !Ignored(v) && !Ignored(lv) && lv != v
    ensures var t' := TrackAccess(TrackAccess(t, v, Read), lv, LoopVar(v));
            && t'.externalVars == {v}
            && t'.loopVars == map[lv := v]
            && t'.objectAttrs == map[]
            && t'.objectAliases == map[]
            && t'.firstAccess.Keys == {v, lv}
  {
    BaseNameOfPlain(v);
  }

  /** `{{ lv.a }}` inside the loop: the attribute goes to the iterable `v`, nothing is classified. */
  lemma LoopBodySteps(t: VariableTracker, v: string, lv: string, a: string)
    requires t.loopVars == map[lv := v] && t.objectAttrs == map[] && t.firstAccess.Keys == {v, lv}
    requires NoDot(v) && NoDot(lv) && NoDot(a) && !Ignored(lv + [Dot] + a)
    ensures var t' := TrackAccess(TrackAccess(t, lv + [Dot] + a, Read), lv, Read);
            && t'.externalVars == t.externalVars
            && t'.loopVars == t.loopVars
            && t'.objectAliases == t.objectAliases
            && t'.objectAttrs == map[v := {a}]
  {
    var name := lv + [Dot] + a;
    assert name[|lv|] == Dot;
    TrackAttributeEdge(t, lv, a, Read);
    BaseNameOfJoin(lv, a);
    var t1 := TrackAccess(t, name, Read);
    assert t1.objectAttrs.Keys == {v} && t1.objectAttrs[v] == {a};
  }

  /** The whole event sequence of `{% for lv in v %}{{ lv.a }}{% endfor %}`. */
  lemma LoopRun(t: VariableTracker, v: string, lv: string, a: string)
    requires Fresh(t)
    requires NoDot(v) && NoDot(lv) && NoDot(a) && !Ignored(v) && !Ignored(lv) && lv != v
    requires !Ignored(lv + [Dot] + a)
    ensures var t' := Run(t, [Event(v, Read), Event(lv, LoopVar(v)), Event(lv + [Dot] + a, Read), Event(lv, Read)]);
            && t'.externalVars == {v}
            && t'.loopVars == map[lv := v]
            && t'.objectAttrs == map[v := {a}]
            && t'.objectAliases == map[]
  {
    RunFour(t, Event(v, Read), Event(lv, LoopVar(v)), Event(lv + [Dot] + a, Read), Event(lv, Read));
    LoopHeaderSteps(t, v, lv);
    LoopBodySteps(TrackAccess(TrackAccess(t, v, Read), lv, LoopVar(v)), v, lv, a);
  }

  lemma LoopShape(d: TemplateData)
    requires d.externalVars == {"items"} && d.objectAttrs == map["items" := {"name"}]
    requires d.loopVars == map["item" := "items"] && d.objectAliases == map[]
    ensures BuildNestedObject(d) == Obj(map["items" := Arr([Obj(map["name" := Leaf])])])
  {
    var shape := BuildNestedObject(d);
    assert "items" in d.loopVars.Values by {
      assert d.loopVars["item"] == "items";
    }
    ExternalShapeKind(d, "items");
    var s := shape.fields["items"];
    var obj := s.items[0];
    assert obj == BuildObjectFromAttrs(d, "items");
    assert "items" + [Dot] + "name" !in d.objectAttrs;
    assert FieldAgrees(d, "items", "name", obj.fields["name"]);
    assert obj == Obj(map["name" := Leaf]);
  }

  /**
    The loop binds `item` to `items`, `items` is the one external name, and
    its shape is a one-element array of objects with a `name` field
    (src/lib.rs:670-691).
   */
  lemma LoopVariableDetection()
    ensures Analyze(LoopTemplate()).loopVars == map["item" := "items"]
    ensures Analyze(LoopTemplate()).externalVars == {"items"}
    ensures Analyze(LoopTemplate()).objectShapes == Obj(map["items" := Arr([Obj(map["name" := Leaf])])])
  {
    LoopEvents();
    assert "item.name" == "item" + [Dot] + "name";
    NotIgnored("items");
    NotIgnored("item");
    NotIgnored("item.name");
    LoopRun(New(), "items", "item", "name");
    LoopShape(DataOf(Run(New(), StmtEvents(LoopTemplate()))));
  }

  // ---------------------------------------------------------------------
  // {% set u = user %}{{ u.email }}
  // ---------------------------------------------------------------------

  function AliasTemplate(): Stmt {
    Template([SetStmt(Some("u"), Var("user")), EmitExpr(GetAttr(Var("u"), "email"))])
  }

  lemma AliasEvents()
    ensures StmtEvents(AliasTemplate()) ==
      [Event("user", Read), Event("u", SetAlias("user")), Event("u.email", Read), Event("u", Read)]
  {
    assert GetAttributePath(GetAttr(Var("u"), "email")) == "u" + [Dot] + "email" == "u.email";
  }

  /** `{{ v }}` then `{% set al = v %}` on a fresh tracker. */
  lemma AliasHeaderSteps(t: VariableTracker, v: string, al: string)
    requires Fresh(t)
    requires NoDot(v) && NoDot(al) && !Ignored(v) && !Ignored(al) && al != v
    ensures var t' := TrackAccess(TrackAccess(t, v, Read), al, SetAlias(v));
            && t'.externalVars == {v}
            && t'.internalVars == {al}
            && t'.loopVars == map[]
            && t'.objectAttrs == map[]
            && t'.objectAliases == map[v := al]
            && t'.firstAccess.Keys == {v, al}
  {
    BaseNameOfPlain(v);
  }

  /** `{{ al.a }}` on a name that is not a loop variable: `al` itself becomes external. */
  lemma AliasAttrStep(t: VariableTracker, v: string, al: string, a: string)
    requires t.externalVars == {v} && t.loopVars == map[] && t.objectAttrs == map[] && t.firstAccess.Keys == {v, al}
    requires NoDot(v) && NoDot(al) && NoDot(a) && !Ignored(al + [Dot] + a)
    ensures var t' := TrackAccess(t, al + [Dot] + a, Read);
            && t'.externalVars == {v, al}
            && t'.internalVars == t.internalVars
            && t'.objectAliases == t.objectAliases
            && t'.loopVars == map[]
            && t'.objectAttrs == map[al := {a}]
            && al in t'.firstAccess
  {
    var name := al + [Dot] + a;
    assert name[|al|] == Dot;
    TrackAttributeEdge(t, al, a, Read);
    BaseNameOfJoin(al, a);
    var t1 := TrackAccess(t, name, Read);
    assert t1.objectAttrs.Keys == {al} && t1.objectAttrs[al] == {a};
  }

  /** The whole event sequence of `{{ v }}{% set al = v %}{{ al.a }}`. */
  lemma AliasRun(t: VariableTracker, v: string, al: string, a: string)
    requires Fresh(t)
    requires NoDot(v) && NoDot(al) && NoDot(a) && !Ignored(v) && !Ignored(al) && al != v
    requires !Ignored(al + [Dot] + a)
    ensures var t' := Run(t, [Event(v, Read), Event(al, SetAlias(v)), Event(al + [Dot] + a, Read), Event(al, Read)]);
            && t'.externalVars == {v, al}
            && t'.internalVars == {al}
            && t'.loopVars == map[]
            && t'.objectAttrs == map[al := {a}]
            && t'.objectAliases == map[v := al]
  {
    RunFour(t, Event(v, Read), Event(al, SetAlias(v)), Event(al + [Dot] + a, Read), Event(al, Read));
    AliasHeaderSteps(t, v, al);
    var t2 := TrackAccess(TrackAccess(t, v, Read), al, SetAlias(v));
    AliasAttrStep(t2, v, al, a);
  }

  // ---------------------------------------------------------------------
  // {{ x.a }}{% for x in items %}{% endfor %}
  // ---------------------------------------------------------------------

  function ReadThenLoopTemplate(): Stmt {
    Template([EmitExpr(GetAttr(Var("x"), "a")), ForLoop(Some("x"), Var("items"), [])])
  }

  lemma ReadThenLoopEvents()
    ensures StmtEvents(ReadThenLoopTemplate()) ==
      [Event("x.a", Read), Event("x", Read), Event("items", Read), Event("x", LoopVar("items"))]
  {
    assert GetAttributePath(GetAttr(Var("x"), "a")) == "x" + [Dot] + "a" == "x.a";
  }

  /** Reads of `x.a`, `x` and `it`, then a loop binding of `x`: the binding is a repeated access. */
  lemma ReadThenLoopRun(t: VariableTracker, x: string, a: string, it: string)
    requires Fresh(t)
    requires NoDot(x) && NoDot(a) && !Ignored(x) && !Ignored(x + [Dot] + a)
    ensures var t' := Run(t, [Event(x + [Dot] + a, Read), Event(x, Read), Event(it, Read), Event(x, LoopVar(it))]);
            x in t'.externalVars && t'.loopVars == map[]
  {
    RunFour(t, Event(x + [Dot] + a, Read), Event(x, Read), Event(it, Read), Event(x, LoopVar(it)));
    ReadAttrStep(t, x, a);
    var t1 := TrackAccess(t, x + [Dot] + a, Read);
    var t2 := TrackAccess(t1, x, Read);
    assert x in t2.firstAccess && t2.loopVars == map[];
    var t3 := TrackAccess(t2, it, Read);
    assert x in t3.firstAccess && t3.loopVars == map[];
  }

  /**
    In `{{ x.a }}{% for x in items %}{% endfor %}` the walk reads `x` before
    the loop binds it, so `x` stays external and no loop variable is bound.
   */
  lemma ReadBeforeLoopBindsNothing()
    ensures Analyze(ReadThenLoopTemplate()).loopVars == map[]
    ensures "x" in Analyze(ReadThenLoopTemplate()).externalVars
  {
    ReadThenLoopEvents();
    assert "x.a" == "x" + [Dot] + "a";
    NotIgnored("x");
    NotIgnored("x.a");
    ReadThenLoopRun(New(), "x", "a", "items");
  }

  /** With the one alias `v → al`, both names resolve to `al`. */
  lemma SingleAliasResolves(v: string, al: string)
    requires v != al
    ensures ResolveAliasChain(map[v := al], v) == al
    ensures ResolveAliasChain(map[v := al], al) == al
  {
  }

  /**
    On the cyclic chain `x → a → b → a`, resolution stops at `b`, the last
    name before the first revisit (src/lib.rs:269-276).
   */
  lemma CyclicAliasStopsAtFirstRevisit(x: string, a: string, b: string)
    requires x != a && a != b && x != b
    ensures ResolveAliasChain(map[x := a, a := b, b := a], x) == b
  {
    var m := map[x := a, a := b, b := a];
    assert ResolveFrom(m, b, {a, b}) == b;
    assert {} + {a} == {a} && {a} + {b} == {a, b};
    assert ResolveFrom(m, a, {a}) == ResolveFrom(m, b, {a, b});
    assert ResolveFrom(m, x, {}) == ResolveFrom(m, a, {a});
  }

  /**
    On a two-name cycle `x -> a, a -> x` each name resolves to itself: the
    start is not marked visited, so the walk passes `a`, comes back to `x`,
    and stops there because `a` is already visited.
   */
  lemma TwoCycleResolvesToStart(x: string, a: string)
    requires x != a
    ensures ResolveAliasChain(map[x := a, a := x], x) == x
    ensures ResolveAliasChain(map[x := a, a := x], a) == a
  {
    var m := map[x := a, a := x];
    TwoCycleStart(m, x, a);
    TwoCycleStart(m, a, x);
  }

  /** The walk from `x` on a map with `x -> a` and `a -> x`, one call of the loop at a time. */
  lemma TwoCycleStart(m: map<string, string>, x: string, a: string)
    requires x != a && x in m && a in m && m[x] == a && m[a] == x
    ensures ResolveAliasChain(m, x) == x
  {
    assert ResolveFrom(m, x, {a, x}) == x;
    assert {} + {a} == {a} && {a} + {x} == {a, x};
    assert ResolveFrom(m, a, {a}) == x;
  }

  /** The shapes for `{{ v }}{% set al = v %}{{ al.a }}`: both names get the object `{a: ""}`. */
  lemma AliasShape(d: TemplateData, v: string, al: string, a: string)
    requires v != al
    requires d.externalVars == {v, al} && d.objectAttrs == map[al := {a}]
    requires d.loopVars == map[] && d.objectAliases == map[v := al]
    ensures BuildNestedObject(d) == Obj(map[v := Obj(map[a := Leaf]), al := Obj(map[a := Leaf])])
  {
    var shape := BuildNestedObject(d);
    SingleAliasResolves(v, al);
    assert FindIteratedVar(d, al) == None;
    var obj := BuildObjectFromAttrs(d, al);
    assert shape.fields[v] == VarShape(d, v) == obj;
    assert shape.fields[al] == VarShape(d, al) == obj;
    assert Child(al, a) !in d.objectAttrs;
    assert FieldAgrees(d, al, a, obj.fields[a]);
    assert obj == Obj(map[a := Leaf]);
    assert shape.fields == map[v := obj, al := obj];
  }

  /**
    Reading an attribute of a set variable makes its base external too:
    `u` is both internal and external, and the attributes read through `u`
    also describe `user`, which resolves to `u` (src/lib.rs:172-179, 239).
   */
  lemma AliasedVariable()
    ensures Analyze(AliasTemplate()).externalVars == {"user", "u"}
    ensures Analyze(AliasTemplate()).internalVars == {"u"}
    ensures Analyze(AliasTemplate()).objectShapes ==
      Obj(map["user" := Obj(map["email" := Leaf]), "u" := Obj(map["email" := Leaf])])
  {
    AliasEvents();
    assert "u.email" == "u" + [Dot] + "email";
    NotIgnored("user");
    NotIgnored("u");
    NotIgnored("u.email");
    AliasRun(New(), "user", "u", "email");
    AliasShape(DataOf(Run(New(), StmtEvents(AliasTemplate()))), "user", "u", "email");
  }

  /** A template with no variable references yields empty sets, no bindings and an empty shape. */
  lemma EmptyTemplate()
    ensures var r := Analyze(Template([OtherStmt, EmitExpr(Const(Number))]));
            && r.externalVars == {}
            && r.internalVars == {}
            && r.loopVars == map[]
            && r.objectShapes == Obj(map[])
  {
    assert StmtEvents(Template([OtherStmt, EmitExpr(Const(Number))])) == [];
    EmptyRunIsEmpty();
  }
}

=== FILE: shapes.dfy ===
/**
  The shape builder (src/lib.rs:223-352): turns the tracker's final state into
  a nested schema skeleton. Objects are maps, arrays hold one representative
  element (or none), and the only scalar is the empty-string leaf.
 */
module Shapes {
  import opened Options
  import opened Names
  import opened Aliases
  import Tracker

  /** A JSON-like shape: `""`, an object, or an array. */
  datatype Shape = Leaf | Obj(fields: map<string, Shape>) | Arr(items: seq<Shape>)

  /** The part of the tracker state the builder reads (src/lib.rs:223-231). */
  datatype TemplateData = TemplateData(
    internalVars: set<string>,
    externalVars: set<string>,
    loopVars: map<string, string>,
    objectAttrs: map<string, set<string>>,
    objectAliases: map<string, string>)

  /**
    The one attribute name always shaped as an array when it has nested
    attributes, whatever the loop evidence (src/lib.rs:322).
   */
  const ToolCalls: string := "tool_calls"

  /** The attributes `d` records under `key`, or none when `key` is absent. */
  function AttrsOf(d: TemplateData, key: string): set<string> {
    Tracker.AttrsAt(d.objectAttrs, key)
  }

  /** The dotted key of attribute `a` under `key` (`format!("{obj_key}.{attr}")`). */
  function Child(key: string, a: string): (r: string)
    ensures |r| > |key|
  {
    key + [Dot] + a
  }

  /**
    `find_iterated_var` (src/lib.rs:282-297): `Some(v)` when `v` is a loop
    iterable, else `Some` of the first iterable whose alias resolution is `v`
    (which is `v` itself), else `None`.
   */
  function FindIteratedVar(d: TemplateData, v: string): (r: Option<string>)
    ensures r == None || r == Some(v)
    ensures r.Some? <==> exists it :: it in d.loopVars.Values && (it == v || ResolveAliasChain(d.objectAliases, it) == v)
  {
    if v in d.loopVars.Values then Some(v)
    else if exists it :: it in d.loopVars.Values && ResolveAliasChain(d.objectAliases, it) == v then Some(v)
    else None
  }

  /**
    A name is found iterated only when it lies on the alias chain of some
    loop iterable, at most as many steps away as there are alias targets.
   */
  lemma IteratedLiesOnIterableChain(d: TemplateData, v: string)
    requires FindIteratedVar(d, v).Some?
    ensures exists it, k: nat :: it in d.loopVars.Values && k <= |d.objectAliases.Values|
                                 && Follow(d.objectAliases, it, k) == Some(v)
  {
    var it :| it in d.loopVars.Values && (it == v || ResolveAliasChain(d.objectAliases, it) == v);
    if it == v {
      assert Follow(d.objectAliases, it, 0) == Some(v);
    } else {
      var k: nat :| k <= |d.objectAliases.Values| && StopsAt(d.objectAliases, it, {}, v, k);
    }
  }

  /** Some loop variable is bound to iterate over `path` (`find_corresponding_loop_var(..).is_some()`). */
  predicate Looped(d: TemplateData, path: string) {
    path in d.loopVars.Values
  }

  /**
    `find_corresponding_loop_var` (src/lib.rs:343-352): scans the loop
    bindings and returns a loop variable bound to `path`, if any. The source
    walks a hash map, so which of several such variables comes back is
    unspecified; the choice here is equally arbitrary.
   */
  method FindCorrespondingLoopVar(d: TemplateData, path: string) returns (r: Option<string>)
    ensures r.Some? <==> Looped(d, path)
    ensures r.Some? ==> r.value in d.loopVars && d.loopVars[r.value] == path
  {
    var remaining := d.loopVars.Keys;
    while remaining != {}
      invariant remaining <= d.loopVars.Keys
      invariant forall lv :: lv in d.loopVars && lv !in remaining ==> d.loopVars[lv] != path
      decreases remaining
    {
      var lv :| lv in remaining;
      if d.loopVars[lv] == path {
        return Some(lv);
      }
      remaining := remaining - {lv};
    }
    return None;
  }

  /** The keys of `d.objectAttrs` longer than `key`: what recursion below `key` may still visit. */
  function Longer(d: TemplateData, key: string): set<string> {
    set k | k in d.objectAttrs && |k| > |key|
  }

  /** How the field for attribute `a` of `key` is shaped (src/lib.rs:305-335). */
  ghost predicate FieldAgrees(d: TemplateData, key: string, a: string, s: Shape) {
    var nested := Child(key, a);
    && (s.Leaf? <==> nested !in d.objectAttrs)
    && (s.Arr? <==> nested in d.objectAttrs && (Looped(d, nested) || a == ToolCalls))
    && (s.Arr? ==> |s.items| == 1 && s.items[0].Obj? && s.items[0].fields.Keys == AttrsOf(d, nested))
    && (s.Obj? ==> s.fields.Keys == AttrsOf(d, nested))
  }

  /**
    `build_object_from_attrs` (src/lib.rs:300-340): an object with one field
    per attribute recorded under `key`. Recursion goes to `key.a`, which is
    strictly longer and a key of the finite attribute map.
   */
  function BuildObjectFromAttrs(d: TemplateData, key: string): (r: Shape)
    ensures r.Obj?
    ensures r.fields.Keys == AttrsOf(d, key)
    ensures forall a :: a in r.fields ==> FieldAgrees(d, key, a, r.fields[a])
    decreases Longer(d, key), 1
  {
    if key in d.objectAttrs then
      Obj(map a | a in d.objectAttrs[key] :: AttributeShape(d, key, a))
    else
      Obj(map[])
  }

  /** The field for attribute `a` of `key`: the loop body of `build_object_from_attrs`. */
  function AttributeShape(d: TemplateData, key: string, a: string): (r: Shape)
    ensures FieldAgrees(d, key, a, r)
    decreases Longer(d, key), 0
  {
    var nested := Child(key, a);
    if nested in d.objectAttrs then
      assert nested in Longer(d, key) && nested !in Longer(d, nested);
      var inner := BuildObjectFromAttrs(d, nested);
      if Looped(d, nested) || a == ToolCalls then Arr([inner]) else inner
    else
      Leaf
  }

  /**
    `s` is shaped for `key` at every depth: an object with exactly `key`'s
    attributes whose every field obeys the leaf / array / object rule, and
    whose nested objects (the array element, when wrapped) are in turn
    shaped for the longer key.
   */
  ghost predicate Shaped(d: TemplateData, key: string, s: Shape)
    decreases Longer(d, key), 1
  {
    && s.Obj?
    && s.fields.Keys == AttrsOf(d, key)
    && forall a :: a in s.fields ==> FieldShaped(d, key, a, s.fields[a])
  }

  /** The field for `a` under `key` obeys the rule, and its nested object is shaped. */
  ghost predicate FieldShaped(d: TemplateData, key: string, a: string, f: Shape)
    decreases Longer(d, key), 0
  {
    && FieldAgrees(d, key, a, f)
    && var nested := Child(key, a);
       (nested in d.objectAttrs ==>
          assert nested in Longer(d, key) && nested !in Longer(d, nested);
          Shaped(d, nested, if f.Arr? then f.items[0] else f))
  }

  /** The built object is shaped at every depth. */
  lemma BuildShaped(d: TemplateData, key: string)
    ensures Shaped(d, key, BuildObjectFromAttrs(d, key))
    decreases Longer(d, key), 1
  {
    var r := BuildObjectFromAttrs(d, key);
    forall a | a in r.fields
      ensures FieldShaped(d, key, a, r.fields[a])
    {
      assert r.fields[a] == AttributeShape(d, key, a);
      AttributeShapeShaped(d, key, a);
    }
  }

  lemma AttributeShapeShaped(d: TemplateData, key: string, a: string)
    ensures FieldShaped(d, key, a, AttributeShape(d, key, a))
    decreases Longer(d, key), 0
  {
    var nested := Child(key, a);
    if nested in d.objectAttrs {
      assert nested in Longer(d, key) && nested !in Longer(d, nested);
      BuildShaped(d, nested);
    }
  }

  /**
    Being shaped pins the object down: the built object is the only shape
    for `key` that obeys the rule at every depth.
   */
  lemma ShapedIsBuilt(d: TemplateData, key: string, s: Shape)
    requires Shaped(d, key, s)
    ensures s == BuildObjectFromAttrs(d, key)
    decreases Longer(d, key), 1
  {
    var r := BuildObjectFromAttrs(d, key);
    forall a | a in s.fields
      ensures s.fields[a] == r.fields[a]
    {
      assert r.fields[a] == AttributeShape(d, key, a);
      FieldShapedIsAttributeShape(d, key, a, s.fields[a]);
    }
    assert s.fields == r.fields;
  }

  lemma FieldShapedIsAttributeShape(d: TemplateData, key: string, a: string, f: Shape)
    requires FieldShaped(d, key, a, f)
    ensures f == AttributeShape(d, key, a)
    decreases Longer(d, key), 0
  {
    var nested := Child(key, a);
    if nested in d.objectAttrs {
      assert nested in Longer(d, key) && nested !in Longer(d, nested);
      if f.Arr? {
        ShapedIsBuilt(d, nested, f.items[0]);
        assert f.items == [f.items[0]];
      } else {
        ShapedIsBuilt(d, nested, f);
      }
    }
  }

  /** The shape emitted for one external name (the loop body of `build_nested_object`). */
  function VarShape(d: TemplateData, v: string): Shape {
    var resolved := ResolveAliasChain(d.objectAliases, v);
    match FindIteratedVar(d, resolved)
    case Some(iterated) =>
      if iterated in d.objectAttrs then Arr([BuildObjectFromAttrs(d, iterated)]) else Arr([])
    case None =>
      if resolved in d.objectAttrs then BuildObjectFromAttrs(d, resolved) else Leaf
  }

  /** `build_nested_object` (src/lib.rs:233-262): one entry per external name. */
  function BuildNestedObject(d: TemplateData): (r: Shape)
    ensures r.Obj? && r.fields.Keys == d.externalVars
  {
    Obj(map v | v in d.externalVars :: VarShape(d, v))
  }

  /**
    `s` has a field path `p`: each segment selects an object field, and an
    array stands for any of its elements without consuming a segment.
   */
  ghost predicate HasPath(s: Shape, p: seq<string>)
    decreases |p|, s
  {
    p == [] ||
    match s
    case Leaf => false
    case Obj(fields) => p[0] in fields && HasPath(fields[p[0]], p[1..])
    case Arr(items) => exists i :: 0 <= i < |items| && HasPath(items[i], p)
  }

  /** `p` is a chain of attributes recorded from `key` down in the flattened attribute map. */
  ghost predicate AttrPath(attrs: map<string, set<string>>, key: string, p: seq<string>)
    decreases |p|
  {
    p == [] || (key in attrs && p[0] in attrs[key] && AttrPath(attrs, key + [Dot] + p[0], p[1..]))
  }

  /**
    The object built for `key` has exactly the field paths that the
    flattened attribute map records below `key`: rebuilding loses and
    invents nothing.
   */
  lemma {:induction false} BuildObjectPaths(d: TemplateData, key: string, p: seq<string>)
    ensures HasPath(BuildObjectFromAttrs(d, key), p) <==> AttrPath(d.objectAttrs, key, p)
    decreases |p|
  {
    if p != [] {
      var a := p[0];
      var r := BuildObjectFromAttrs(d, key);
      if key in d.objectAttrs && a in d.objectAttrs[key] {
        var nested := Child(key, a);
        var field := r.fields[a];
        assert field == AttributeShape(d, key, a);
        if nested in d.objectAttrs {
          var inner := BuildObjectFromAttrs(d, nested);
          BuildObjectPaths(d, nested, p[1..]);
          assert HasPath(field, p[1..]) <==> HasPath(inner, p[1..]) by {
            if field.Arr? {
              assert field.items == [inner];
            }
          }
        } else {
          assert field == Leaf;
        }
      }
    }
  }

  /**
    The shape of each external name describes exactly the attribute paths
    recorded for the name it resolves to through the alias map.
   */
  lemma ExternalShapePaths(d: TemplateData, v: string, p: seq<string>)
    requires v in d.externalVars
    ensures HasPath(BuildNestedObject(d).fields[v], p)
            <==> AttrPath(d.objectAttrs, ResolveAliasChain(d.objectAliases, v), p)
  {
    var resolved := ResolveAliasChain(d.objectAliases, v);
    var s := BuildNestedObject(d).fields[v];
    assert s == VarShape(d, v);
    if resolved in d.objectAttrs {
      BuildObjectPaths(d, resolved, p);
      if s.Arr? {
        assert s.items == [BuildObjectFromAttrs(d, resolved)];
        assert p != [] ==> (HasPath(s, p) <==> HasPath(s.items[0], p));
      }
    } else if p != [] {
      assert s == Leaf || s == Arr([]);
    }
  }

  /**
    How each top-level entry is chosen (src/lib.rs:244-258): an array exactly
    when the resolved name is iterated, with one element when it has
    attributes and none otherwise; an object when it has attributes but is
    not iterated; otherwise the leaf.
   */
  lemma ExternalShapeKind(d: TemplateData, v: string)
    requires v in d.externalVars
    ensures var resolved := ResolveAliasChain(d.objectAliases, v);
            var s := BuildNestedObject(d).fields[v];
            var iterated := FindIteratedVar(d, resolved).Some?;
            && (s.Arr? <==> iterated)
            && (s == Arr([]) <==> iterated && resolved !in d.objectAttrs)
            && (s.Arr? && resolved in d.objectAttrs ==>
                  |s.items| == 1 && s.items[0].Obj? && s.items[0].fields.Keys == d.objectAttrs[resolved])
            && (s.Obj? <==> !iterated && resolved in d.objectAttrs)
            && (s.Obj? ==> s.fields.Keys == d.objectAttrs[resolved])
            && (s.Leaf? <==> !iterated && resolved !in d.objectAttrs)
            && (s.Arr? && resolved in d.objectAttrs ==> s.items == [BuildObjectFromAttrs(d, resolved)])
            && (s.Obj? ==> s == BuildObjectFromAttrs(d, resolved))
  {
    assert BuildNestedObject(d).fields[v] == VarShape(d, v);
  }
}

=== FILE: tracker.dfy ===
/**
  The access tracker (src/lib.rs:53-195): one state transition per
  variable-touch event. The mutable `VariableTracker` of the source is an
  immutable record here, `TrackAccess` is a pure state transformer and `Run`
  folds it over a sequence of events in order.
 */
module Tracker {
  import opened Options
  import opened Names

  /** How a name is touched (src/lib.rs:53-59). */
  datatype VarAccess =
    | Read
    | Set
      /** `{% set name = target %}` where `target` is a bare variable. */
    | SetAlias(target: string)
      /** `{% for name in iterable %}`, with the iterable's dotted path. */
    | LoopVar(iterable: string)

  /** One call of `track_access`. */
  datatype Event = Event(name: string, access: VarAccess)

  /**
    The tracker state (src/lib.rs:61-84). The `verbose` flag only drives
    diagnostic printing and is not part of the state here.
   */
  datatype VariableTracker = VariableTracker(
    accessLog: seq<Event>,
    internalVars: set<string>,
    externalVars: set<string>,
    loopVars: map<string, string>,
    objectAttrs: map<string, set<string>>,
    objectAliases: map<string, string>,
    varHierarchy: map<string, set<string>>,
    firstAccess: map<string, VarAccess>)

  /** The attributes recorded under `key`, or none when `key` is absent. */
  function AttrsAt(m: map<string, set<string>>, key: string): set<string> {
    if key in m then m[key] else {}
  }

  /**
    `m.entry(key).or_default().insert(attr)`: adds `attr` under `key`,
    creating the entry when absent, and changes no other entry.
   */
  function AddAttr(m: map<string, set<string>>, key: string, attr: string): (r: map<string, set<string>>)
    ensures r.Keys == m.Keys + {key}
    ensures r[key] == AttrsAt(m, key) + {attr}
    ensures forall k :: k in m && k != key ==> r[k] == m[k]
  {
    m[key := AttrsAt(m, key) + {attr}]
  }

  /**
    Where an attribute seen through `parent` is recorded: the iterable when
    `parent` is a loop variable, otherwise `parent` itself (src/lib.rs:148-160).
   */
  function Owner(loopVars: map<string, string>, parent: string): string {
    if parent in loopVars then loopVars[parent] else parent
  }

  /** The tracker before any event (src/lib.rs:87-99). */
  function New(): (t: VariableTracker)
    ensures Valid(t)
  {
    VariableTracker([], {}, {}, map[], map[], map[], map[], map[])
  }

  /** Step 3 of `track_access`: parent→attribute edges of a dotted name (src/lib.rs:129-161). */
  function RecordAttribute(t: VariableTracker, name: string): VariableTracker {
    match SplitLast(name)
    case None => t
    case Some((parent, attr)) =>
      var hierarchy := AddAttr(t.varHierarchy, parent, attr);
      var hierarchy' :=
        match FirstDot(parent)
        case None => hierarchy
        case Some(b) => AddAttr(hierarchy, parent[..b], parent[b + 1..]);
      t.(varHierarchy := hierarchy',
         objectAttrs := AddAttr(t.objectAttrs, Owner(t.loopVars, parent), attr))
  }

  /** Step 4 of `track_access`: classification on a name's first access (src/lib.rs:163-194). */
  function Classify(t: VariableTracker, name: string, access: VarAccess): VariableTracker {
    if name in t.firstAccess then t
    else
      var t1 := t.(firstAccess := t.firstAccess[name := access]);
      match access
      case Read =>
        var base := BaseName(name);
        if base in t1.loopVars then t1
        else t1.(externalVars := t1.externalVars + {base})
      case Set =>
        t1.(internalVars := t1.internalVars + {name})
      case SetAlias(target) =>
        t1.(objectAliases := t1.objectAliases[target := name],
            internalVars := t1.internalVars + {name})
      case LoopVar(iterable) =>
        t1.(internalVars := t1.internalVars + {name},
            loopVars := t1.loopVars[name := iterable])
  }

  /** Neither the classification nor any first access differs between `t` and `t'`. */
  predicate SameClassification(t: VariableTracker, t': VariableTracker) {
    && t'.externalVars == t.externalVars
    && t'.internalVars == t.internalVars
    && t'.loopVars == t.loopVars
    && t'.objectAliases == t.objectAliases
    && t'.firstAccess == t.firstAccess
  }

  /**
    What the first access of a new `name` does to the classification
    (src/lib.rs:169-193).
   */
  predicate ClassifiedAsFirst(t: VariableTracker, t': VariableTracker, name: string, access: VarAccess) {
    && t'.firstAccess == t.firstAccess[name := access]
    && match access
       case Read =>
         && t'.internalVars == t.internalVars
         && t'.loopVars == t.loopVars
         && t'.objectAliases == t.objectAliases
         && (BaseName(name) in t.loopVars ==> t'.externalVars == t.externalVars)
         && (BaseName(name) !in t.loopVars ==> t'.externalVars == t.externalVars + {BaseName(name)})
       case Set =>
         && t'.internalVars == t.internalVars + {name}
         && t'.externalVars == t.externalVars
         && t'.loopVars == t.loopVars
         && t'.objectAliases == t.objectAliases
       case SetAlias(target) =>
         && t'.internalVars == t.internalVars + {name}
         && t'.objectAliases == t.objectAliases[target := name]
         && t'.externalVars == t.externalVars
         && t'.loopVars == t.loopVars
       case LoopVar(iterable) =>
         && t'.internalVars == t.internalVars + {name}
         && t'.loopVars == t.loopVars[name := iterable]
         && t'.externalVars == t.externalVars
         && t'.objectAliases == t.objectAliases
  }

  /**
    `VariableTracker::track_access` (src/lib.rs:101-195): ignore reserved
    names, log the access, record attribute edges, classify on first access.
   */
  function TrackAccess(t: VariableTracker, name: string, access: VarAccess): (t': VariableTracker)
    ensures Ignored(name) ==> t' == t
    ensures !Ignored(name) ==> t'.accessLog == t.accessLog + [Event(name, access)]
    ensures NoDot(name) ==> t'.objectAttrs == t.objectAttrs && t'.varHierarchy == t.varHierarchy
    ensures name in t.firstAccess ==> SameClassification(t, t')
    ensures !Ignored(name) && name !in t.firstAccess ==> ClassifiedAsFirst(t, t', name, access)
  {
    if Ignored(name) then t
    else
      var logged := t.(accessLog := t.accessLog + [Event(name, access)]);
      Classify(RecordAttribute(logged, name), name, access)
  }

  /** Feeds `events` to the tracker in order, as the tree walk does. */
  function Run(t: VariableTracker, events: seq<Event>): VariableTracker
    decreases |events|
  {
    if events == [] then t
    else Run(TrackAccess(t, events[0].name, events[0].access), events[1..])
  }

  /**
    A dotted access records its last segment under the parent, or under the
    parent's iterable when the parent is a loop variable, and leaves every
    other attribute entry as it was (src/lib.rs:129-160).
   */
  lemma TrackAttributeEdge(t: VariableTracker, parent: string, attr: string, access: VarAccess)
    requires NoDot(attr)
    requires !Ignored(parent + [Dot] + attr)
    ensures var t' := TrackAccess(t, parent + [Dot] + attr, access);
            var owner := Owner(t.loopVars, parent);
            && t'.objectAttrs.Keys == t.objectAttrs.Keys + {owner}
            && t'.objectAttrs[owner] == AttrsAt(t.objectAttrs, owner) + {attr}
            && (forall k :: k in t.objectAttrs && k != owner ==> t'.objectAttrs[k] == t.objectAttrs[k])
  {
    SplitLastOfJoin(parent, attr);
  }

  /**
    A name `base.rest.attr` with a dot-free base records `attr` under
    `base.rest` and back-fills everything after the base's dot, `rest`
    (which may itself be dotted), under `base` in the hierarchy map; the
    attribute map gets no such back-fill (src/lib.rs:133-146).
   */
  lemma TrackHierarchyBackfill(t: VariableTracker, base: string, rest: string, attr: string, access: VarAccess)
    requires NoDot(base) && NoDot(attr)
    requires !Ignored(base + [Dot] + rest + [Dot] + attr)
    ensures var t' := TrackAccess(t, base + [Dot] + rest + [Dot] + attr, access);
            var parent := base + [Dot] + rest;
            && t'.varHierarchy.Keys == t.varHierarchy.Keys + {parent, base}
            && attr in t'.varHierarchy[parent]
            && rest in t'.varHierarchy[base]
  {
    var name := base + [Dot] + rest + [Dot] + attr;
    var logged := t.(accessLog := t.accessLog + [Event(name, access)]);
    RecordHierarchy(logged, base, rest, attr);
    assert TrackAccess(t, name, access).varHierarchy == RecordAttribute(logged, name).varHierarchy;
  }

  lemma RecordHierarchy(t: VariableTracker, base: string, rest: string, attr: string)
    requires NoDot(base) && NoDot(attr)
    ensures var t' := RecordAttribute(t, base + [Dot] + rest + [Dot] + attr);
            var parent := base + [Dot] + rest;
            && t'.varHierarchy.Keys == t.varHierarchy.Keys + {parent, base}
            && attr in t'.varHierarchy[parent]
            && rest in t'.varHierarchy[base]
  {
    var parent := base + [Dot] + rest;
    SplitLastOfJoin(parent, attr);
    assert parent[|base|] == Dot;
    var b := FirstDot(parent).value;
    assert NoDot(parent[..b]);
    assert b == |base|;
    assert parent[..b] == base && parent[b + 1..] == rest;
  }

  /**
    Invariant of every state the tracker reaches from `New()`: first
    accesses are never reserved names, and the classification sets and maps
    are exactly what the recorded first accesses dictate.
   */
  ghost predicate Valid(t: VariableTracker) {
    && NamesValid(t)
    && InternalValid(t)
    && LoopsValid(t)
    && AliasesValid(t)
    && ExternalValid(t)
    && ExternalComplete(t)
  }

  ghost predicate NamesValid(t: VariableTracker) {
    forall n :: n in t.firstAccess ==> !Ignored(n)
  }

  ghost predicate InternalValid(t: VariableTracker) {
    forall n :: n in t.internalVars <==> n in t.firstAccess && !t.firstAccess[n].Read?
  }

  ghost predicate LoopsValid(t: VariableTracker) {
    && (forall n :: n in t.loopVars <==> n in t.firstAccess && t.firstAccess[n].LoopVar?)
    && (forall n :: n in t.loopVars ==> t.firstAccess[n] == LoopVar(t.loopVars[n]))
  }

  ghost predicate AliasesValid(t: VariableTracker) {
    && (forall g :: g in t.objectAliases ==>
          t.objectAliases[g] in t.firstAccess && t.firstAccess[t.objectAliases[g]] == SetAlias(g))
    && (forall n :: n in t.firstAccess && t.firstAccess[n].SetAlias? ==> t.firstAccess[n].target in t.objectAliases)
  }

  ghost predicate ExternalValid(t: VariableTracker) {
    forall x :: x in t.externalVars ==>
      exists n :: n in t.firstAccess && t.firstAccess[n] == Read && BaseName(n) == x
  }

  /**
    The converse of `ExternalValid`: a name first read whose base is not (or
    not yet) a loop variable has its base among the external names.
   */
  ghost predicate ExternalComplete(t: VariableTracker) {
    forall n :: n in t.firstAccess && t.firstAccess[n] == Read && BaseName(n) !in t.loopVars ==>
      BaseName(n) in t.externalVars
  }

  lemma TrackAccessValid(t: VariableTracker, name: string, access: VarAccess)
    requires Valid(t)
    ensures Valid(TrackAccess(t, name, access))
  {
    var t' := TrackAccess(t, name, access);
    if !Ignored(name) && name !in t.firstAccess {
      assert ClassifiedAsFirst(t, t', name, access);
      FirstAccessKeepsNamesValid(t, t', name, access);
      FirstAccessKeepsInternalValid(t, t', name, access);
      FirstAccessKeepsLoopsValid(t, t', name, access);
      FirstAccessKeepsAliasesValid(t, t', name, access);
      FirstAccessKeepsExternalValid(t, t', name, access);
      FirstAccessKeepsExternalComplete(t, t', name, access);
    }
  }

  lemma FirstAccessKeepsNamesValid(t: VariableTracker, t': VariableTracker, name: string, access: VarAccess)
    requires NamesValid(t) && !Ignored(name)
    requires ClassifiedAsFirst(t, t', name, access)
    ensures NamesValid(t')
  {
  }

  lemma FirstAccessKeepsInternalValid(t: VariableTracker, t': VariableTracker, name: string, access: VarAccess)
    requires InternalValid(t) && name !in t.firstAccess
    requires ClassifiedAsFirst(t, t', name, access)
    ensures InternalValid(t')
  {
  }

  lemma FirstAccessKeepsLoopsValid(t: VariableTracker, t': VariableTracker, name: string, access: VarAccess)
    requires LoopsValid(t) && name !in t.firstAccess
    requires ClassifiedAsFirst(t, t', name, access)
    ensures LoopsValid(t')
  {
  }

  lemma FirstAccessKeepsAliasesValid(t: VariableTracker, t': VariableTracker, name: string, access: VarAccess)
    requires AliasesValid(t) && name !in t.firstAccess
    requires ClassifiedAsFirst(t, t', name, access)
    ensures AliasesValid(t')
  {
    forall g | g in t'.objectAliases
      ensures t'.objectAliases[g] in t'.firstAccess && t'.firstAccess[t'.objectAliases[g]] == SetAlias(g)
    {
      if !(access.SetAlias? && access.target == g) {
        assert g in t.objectAliases;
        assert t.objectAliases[g] != name;
      }
    }
  }

  lemma FirstAccessKeepsExternalValid(t: VariableTracker, t': VariableTracker, name: string, access: VarAccess)
    requires ExternalValid(t) && name !in t.firstAccess
    requires ClassifiedAsFirst(t, t', name, access)
    ensures ExternalValid(t')
  {
    forall x | x in t'.externalVars
      ensures exists n :: n in t'.firstAccess && t'.firstAccess[n] == Read && BaseName(n) == x
    {
      if x !in t.externalVars {
        assert t'.firstAccess[name] == Read && BaseName(name) == x;
      } else {
        var n :| n in t.firstAccess && t.firstAccess[n] == Read && BaseName(n) == x;
        assert t'.firstAccess[n] == Read;
      }
    }
  }

  lemma FirstAccessKeepsExternalComplete(t: VariableTracker, t': VariableTracker, name: string, access: VarAccess)
    requires ExternalComplete(t) && name !in t.firstAccess
    requires ClassifiedAsFirst(t, t', name, access)
    ensures ExternalComplete(t')
  {
  }

  /** Every state reached by feeding events to a valid state is valid. */
  lemma {:induction false} RunValid(t: VariableTracker, events: seq<Event>)
    requires Valid(t)
    ensures Valid(Run(t, events))
    decreases |events|
  {
    if events != [] {
      TrackAccessValid(t, events[0].name, events[0].access);
      RunValid(TrackAccess(t, events[0].name, events[0].access), events[1..]);
    }
  }

  /**
    `t'` is a later state than `t`: classification only grows, recorded first
    accesses and loop bindings never change, and attribute sets only grow.
   */
  ghost predicate Extends(t: VariableTracker, t': VariableTracker) {
    && t.accessLog <= t'.accessLog
    && t.externalVars <= t'.externalVars
    && t.internalVars <= t'.internalVars
    && (forall n :: n in t.firstAccess ==> n in t'.firstAccess && t'.firstAccess[n] == t.firstAccess[n])
    && (forall n :: n in t.loopVars ==> n in t'.loopVars && t'.loopVars[n] == t.loopVars[n])
    && t.objectAliases.Keys <= t'.objectAliases.Keys
    && (forall k :: k in t.objectAttrs ==> k in t'.objectAttrs && t.objectAttrs[k] <= t'.objectAttrs[k])
  }

  lemma ExtendsTransitive(t1: VariableTracker, t2: VariableTracker, t3: VariableTracker)
    requires Extends(t1, t2) && Extends(t2, t3)
    ensures Extends(t1, t3)
  {
  }

  lemma TrackAccessExtends(t: VariableTracker, name: string, access: VarAccess)
    requires LoopsValid(t)
    ensures Extends(t, TrackAccess(t, name, access))
  {
  }

  /**
    Classification is monotonic along any run: once a name has a first
    access, no later event changes it, and no classified name is ever
    unclassified (src/lib.rs:164).
   */
  lemma {:induction false} RunExtends(t: VariableTracker, events: seq<Event>)
    requires Valid(t)
    ensures Extends(t, Run(t, events))
    decreases |events|
  {
    if events != [] {
      var t1 := TrackAccess(t, events[0].name, events[0].access);
      TrackAccessExtends(t, events[0].name, events[0].access);
      TrackAccessValid(t, events[0].name, events[0].access);
      RunExtends(t1, events[1..]);
      ExtendsTransitive(t, t1, Run(t1, events[1..]));
    }
  }

  /** Running two event sequences one after the other is running their concatenation. */
  lemma {:induction false} RunAppend(t: VariableTracker, a: seq<Event>, b: seq<Event>)
    ensures Run(t, a + b) == Run(Run(t, a), b)
    decreases |a|
  {
    if a != [] {
      var t1 := TrackAccess(t, a[0].name, a[0].access);
      assert (a + b)[0] == a[0];
      assert (a + b)[1..] == a[1..] + b;
      assert Run(t, a + b) == Run(t1, a[1..] + b);
      assert Run(t, a) == Run(t1, a[1..]);
      RunAppend(t1, a[1..], b);
    } else {
      assert a + b == b;
    }
  }

  /** A repeated access of an already classified name changes no classification. */
  lemma {:induction false} RepeatedAccessesKeepClassification(t: VariableTracker, events: seq<Event>)
    requires forall i :: 0 <= i < |events| ==> events[i].name in t.firstAccess
    ensures SameClassification(t, Run(t, events))
    decreases |events|
  {
    if events != [] {
      var t1 := TrackAccess(t, events[0].name, events[0].access);
      RepeatedAccessesKeepClassification(t1, events[1..]);
    }
  }

  /** The reserved names never reach any classification of a valid state. */
  lemma ValidHasNoLoopNames(t: VariableTracker)
    requires Valid(t)
    ensures LoopKeyword !in t.externalVars
    ensures forall x :: x in t.externalVars ==> NoDot(x)
    ensures forall n :: n in t.internalVars ==> !Ignored(n)
    ensures forall n :: n in t.loopVars ==> !Ignored(n)
  {
    forall x | x in t.externalVars
      ensures x != LoopKeyword && NoDot(x)
    {
      var n :| n in t.firstAccess && t.firstAccess[n] == Read && BaseName(n) == x;
      BaseNameNotLoop(n);
    }
  }
}

=== FILE: walk.dfy ===
/**
  The tree walk that drives the tracker (src/lib.rs:354-594), over a small
  syntax tree of our own. The parser that produces the tree is not part of
  this model; assignment and loop targets arrive as the identifier the source
  scrapes from the target's debug text, or `None` when it finds none.
  Because the walk only ever calls `track_access`, it is written as the
  sequence of events it emits, and `Analyze` folds the tracker over them.
 */
module Walk {
  import opened Options
  import opened Names
  import opened Tracker
  import opened Analysis

  /** A constant's value: only whether it is a number and how it displays matter. */
  datatype Literal = Number | NonNumber(display: string)

  /** Expression nodes; call, filter and test arguments are not represented. */
  datatype Expr =
    | Var(id: string)
    | GetAttr(base: Expr, name: string)
    | GetItem(base: Expr, subscript: Expr)
    | Call(callee: Expr)
    | Filter(filtered: Option<Expr>)
    | Test(operand: Expr)
    | BinOp(left: Expr, right: Expr)
    | UnaryOp(operand: Expr)
    | List(items: seq<Expr>)
    | MapLit(keys: seq<Expr>, values: seq<Expr>)
    | Const(value: Literal)
    | OtherExpr

  /** One `name = expr` of a `{% with %}` block. */
  datatype Assignment = Assignment(target: Option<string>, value: Expr)

  /** Statement nodes; `OtherStmt` stands for every kind the walk ignores. */
  datatype Stmt =
    | Template(children: seq<Stmt>)
    | Block(body: seq<Stmt>)
    | EmitExpr(expr: Expr)
    | ForLoop(target: Option<string>, iter: Expr, body: seq<Stmt>)
    | IfCond(cond: Expr, trueBody: seq<Stmt>, falseBody: seq<Stmt>)
    | WithBlock(assignments: seq<Assignment>, body: seq<Stmt>)
    | SetStmt(target: Option<string>, expr: Expr)
    | SetBlock(target: Option<string>, body: seq<Stmt>)
    | AutoEscape(body: seq<Stmt>)
    | FilterBlock(filter: Expr, body: seq<Stmt>)
    | OtherStmt

  /** The loop variable used when the target yields no identifier (src/lib.rs:376). */
  const FallbackLoopVar: string := "loop_var"

  /**
    `get_attribute_path` (src/lib.rs:581-594): the dotted path of a variable
    followed by attribute lookups, or the empty string for anything else.
   */
  function GetAttributePath(e: Expr): (r: string)
    ensures e.Var? ==> r == e.id
    ensures !e.Var? && !e.GetAttr? ==> r == []
    ensures e.GetAttr? ==> (r == [] <==> GetAttributePath(e.base) == [])
  {
    match e
    case Var(id) => id
    case GetAttr(base, name) =>
      var basePath := GetAttributePath(base);
      if basePath != [] then basePath + [Dot] + name else []
    case _ => []
  }

  /**
    The tracker's split of an attribute path undoes `get_attribute_path`:
    the parent is the base's path and the attribute is the looked-up name.
   */
  lemma AttributePathSplits(base: Expr, name: string)
    requires GetAttributePath(base) != []
    requires NoDot(name)
    ensures SplitLast(GetAttributePath(GetAttr(base, name))) == Some((GetAttributePath(base), name))
  {
    SplitLastOfJoin(GetAttributePath(base), name);
  }

  /** An attribute path's base name is the identifier of the variable it starts from. */
  lemma {:induction false} AttributePathBase(e: Expr)
    requires GetAttributePath(e) != []
    ensures Root(e).Var? && (NoDot(Root(e).id) ==> BaseName(GetAttributePath(e)) == Root(e).id)
  {
    match e
    case Var(id) =>
      if NoDot(id) {
        BaseNameOfPlain(id);
      }
    case GetAttr(base, name) =>
      AttributePathBase(base);
      var root := Root(base).id;
      if NoDot(root) {
        var bp := GetAttributePath(base);
        assert bp == root || (|root| < |bp| && bp[..|root|] == root && bp[|root|] == Dot);
        if bp == root {
          BaseNameOfJoin(root, name);
        } else {
          assert bp + [Dot] + name == root + [Dot] + (bp[|root| + 1..] + [Dot] + name);
          BaseNameOfJoin(root, bp[|root| + 1..] + [Dot] + name);
        }
      }
    case _ =>
  }

  /** The innermost base of a chain of attribute lookups. */
  function Root(e: Expr): Expr {
    match e
    case GetAttr(base, _) => Root(base)
    case _ => e
  }

  /** The read that `foo["bar"]` records as `foo.bar`, if any (src/lib.rs:483-513). */
  function SubscriptRead(base: Expr, subscript: Expr): seq<Event> {
    if base.Var? && subscript.Const? && subscript.value.NonNumber? then
      [Event(base.id + [Dot] + subscript.value.display, Read)]
    else []
  }

  /** `collect_var_reads` (src/lib.rs:466-578): the reads an expression emits, in order. */
  function ExprEvents(e: Expr): (r: seq<Event>)
    ensures forall i :: 0 <= i < |r| ==> r[i].access == Read
    decreases e
  {
    match e
    case Var(id) => [Event(id, Read)]
    case GetAttr(base, _) => [Event(GetAttributePath(e), Read)] + ExprEvents(base)
    case GetItem(base, subscript) =>
      SubscriptRead(base, subscript) + ExprEvents(base) + ExprEvents(subscript)
    case Call(callee) => ExprEvents(callee)
    case Filter(filtered) =>
      (match filtered
       case None => []
       case Some(x) => ExprEvents(x))
    case Test(operand) => ExprEvents(operand)
    case BinOp(left, right) => ExprEvents(left) + ExprEvents(right)
    case UnaryOp(operand) => ExprEvents(operand)
    case List(items) => ExprsEvents(items)
    case MapLit(keys, values) => ExprsEvents(keys) + ExprsEvents(values)
    case Const(_) => []
    case OtherExpr => []
  }

  function ExprsEvents(es: seq<Expr>): (r: seq<Event>)
    ensures forall i :: 0 <= i < |r| ==> r[i].access == Read
    decreases es
  {
    if es == [] then [] else ExprEvents(es[0]) + ExprsEvents(es[1..])
  }

  /** The event for assigning to `target`, when a target name was found. */
  function TargetEvent(target: Option<string>, access: VarAccess): seq<Event> {
    match target
    case None => []
    case Some(n) => [Event(n, access)]
  }

  /** `set x = y` with a bare variable `y` is an alias of `y`; any other value is a plain set (src/lib.rs:426-433). */
  function SetAccess(value: Expr): VarAccess {
    if value.Var? then SetAlias(value.id) else Set
  }

  /** The names that the defining (non-read) events of `events` carry. */
  function Defs(events: seq<Event>): set<string> {
    set i | 0 <= i < |events| && events[i].access != Read :: events[i].name
  }

  lemma DefsConcat(a: seq<Event>, b: seq<Event>)
    ensures Defs(a + b) == Defs(a) + Defs(b)
  {
    forall n | n in Defs(a + b)
      ensures n in Defs(a) + Defs(b)
    {
      var i :| 0 <= i < |a + b| && (a + b)[i].access != Read && (a + b)[i].name == n;
      if i < |a| {
        assert a[i] == (a + b)[i];
      } else {
        assert b[i - |a|] == (a + b)[i];
      }
    }
    forall n | n in Defs(a)
      ensures n in Defs(a + b)
    {
      var i :| 0 <= i < |a| && a[i].access != Read && a[i].name == n;
      assert (a + b)[i] == a[i];
    }
    forall n | n in Defs(b)
      ensures n in Defs(a + b)
    {
      var i :| 0 <= i < |b| && b[i].access != Read && b[i].name == n;
      assert (a + b)[|a| + i] == b[i];
    }
  }

  /** A single defining event defines its name. */
  lemma DefsSingle(ev: Event)
    requires ev.access != Read
    ensures Defs([ev]) == {ev.name}
  {
    assert [ev][0] == ev;
  }

  /** An expression defines nothing. */
  lemma ExprDefs(e: Expr)
    ensures Defs(ExprEvents(e)) == {}
  {
    var r := ExprEvents(e);
    assert forall i :: 0 <= i < |r| ==> r[i].access == Read;
  }

  /** The names a target slot can define: the scraped identifier, if one was found. */
  function TargetNames(target: Option<string>): set<string> {
    match target
    case None => {}
    case Some(n) => {n}
  }

  /** Assigning to a target defines exactly the names of the slot. */
  lemma TargetDefs(target: Option<string>, access: VarAccess)
    requires access != Read
    ensures Defs(TargetEvent(target, access)) == TargetNames(target)
  {
    if target.Some? {
      DefsSingle(Event(target.value, access));
    }
  }

  /**
    The names a statement assigns to, read off the tree itself: loop targets
    (with the fallback name when none was found), `set` and `set` block
    targets, and `with` assignment targets, at any depth.
   */
  function StmtTargets(s: Stmt): set<string>
    decreases s
  {
    match s
    case Template(children) => StmtsTargets(children)
    case Block(body) => StmtsTargets(body)
    case EmitExpr(_) => {}
    case ForLoop(target, _, body) => {target.GetOr(FallbackLoopVar)} + StmtsTargets(body)
    case IfCond(_, trueBody, falseBody) => StmtsTargets(trueBody) + StmtsTargets(falseBody)
    case WithBlock(assignments, body) => AssignmentsTargets(assignments) + StmtsTargets(body)
    case SetStmt(target, _) => TargetNames(target)
    case SetBlock(target, body) => TargetNames(target) + StmtsTargets(body)
    case AutoEscape(body) => StmtsTargets(body)
    case FilterBlock(_, body) => StmtsTargets(body)
    case OtherStmt => {}
  }

  function StmtsTargets(ss: seq<Stmt>): set<string>
    decreases ss
  {
    if ss == [] then {} else StmtTargets(ss[0]) + StmtsTargets(ss[1..])
  }

  function AssignmentsTargets(assignments: seq<Assignment>): set<string>
    decreases assignments
  {
    if assignments == [] then {}
    else TargetNames(assignments[0].target) + AssignmentsTargets(assignments[1..])
  }

  /**
    `collect_variables` (src/lib.rs:354-463): the events a statement emits, in
    order. The names its defining events carry are exactly the names the tree
    assigns to: every target is tracked, and nothing else is defined.
   */
  function StmtEvents(s: Stmt): (r: seq<Event>)
    ensures Defs(r) == StmtTargets(s)
    decreases s
  {
    match s
    case Template(children) => StmtsEvents(children)
    case Block(body) => StmtsEvents(body)
    case EmitExpr(expr) => ExprDefs(expr); ExprEvents(expr)
    case ForLoop(target, iter, body) =>
      var header := [Event(target.GetOr(FallbackLoopVar), LoopVar(GetAttributePath(iter)))];
      ExprDefs(iter);
      DefsSingle(header[0]);
      DefsConcat(ExprEvents(iter), header);
      DefsConcat(ExprEvents(iter) + header, StmtsEvents(body));
      ExprEvents(iter) + header + StmtsEvents(body)
    case IfCond(cond, trueBody, falseBody) =>
      ExprDefs(cond);
      DefsConcat(ExprEvents(cond), StmtsEvents(trueBody));
      DefsConcat(ExprEvents(cond) + StmtsEvents(trueBody), StmtsEvents(falseBody));
      ExprEvents(cond) + StmtsEvents(trueBody) + StmtsEvents(falseBody)
    case WithBlock(assignments, body) =>
      DefsConcat(AssignmentsEvents(assignments), StmtsEvents(body));
      AssignmentsEvents(assignments) + StmtsEvents(body)
    case SetStmt(target, expr) =>
      ExprDefs(expr);
      TargetDefs(target, SetAccess(expr));
      DefsConcat(ExprEvents(expr), TargetEvent(target, SetAccess(expr)));
      ExprEvents(expr) + TargetEvent(target, SetAccess(expr))
    case SetBlock(target, body) =>
      TargetDefs(target, Set);
      DefsConcat(TargetEvent(target, Set), StmtsEvents(body));
      TargetEvent(target, Set) + StmtsEvents(body)
    case AutoEscape(body) => StmtsEvents(body)
    case FilterBlock(filter, body) =>
      ExprDefs(filter);
      DefsConcat(ExprEvents(filter), StmtsEvents(body));
      ExprEvents(filter) + StmtsEvents(body)
    case OtherStmt => []
  }

  function StmtsEvents(ss: seq<Stmt>): (r: seq<Event>)
    ensures Defs(r) == StmtsTargets(ss)
    decreases ss
  {
    if ss == [] then []
    else
      DefsConcat(StmtEvents(ss[0]), StmtsEvents(ss[1..]));
      StmtEvents(ss[0]) + StmtsEvents(ss[1..])
  }

  /** Each `with` assignment reads its value, then sets its target (src/lib.rs:405-413). */
  function AssignmentsEvents(assignments: seq<Assignment>): (r: seq<Event>)
    ensures Defs(r) == AssignmentsTargets(assignments)
    decreases assignments
  {
    if assignments == [] then []
    else
      var a := assignments[0];
      ExprDefs(a.value);
      TargetDefs(a.target, Set);
      DefsConcat(ExprEvents(a.value), TargetEvent(a.target, Set));
      DefsConcat(ExprEvents(a.value) + TargetEvent(a.target, Set), AssignmentsEvents(assignments[1..]));
      ExprEvents(a.value) + TargetEvent(a.target, Set) + AssignmentsEvents(assignments[1..])
  }

  /** A run adds to the internal set and the loop bindings only names its defining events carry. */
  lemma {:induction false} RunDefinesOnly(t: VariableTracker, events: seq<Event>, names: set<string>)
    requires Defs(events) <= names
    ensures Run(t, events).internalVars <= t.internalVars + names
    ensures Run(t, events).loopVars.Keys <= t.loopVars.Keys + names
    decreases |events|
  {
    if events != [] {
      var t1 := TrackAccess(t, events[0].name, events[0].access);
      assert events[0].access != Read ==> events[0].name in Defs(events);
      assert Defs(events[1..]) <= names by {
        forall n | n in Defs(events[1..])
          ensures n in Defs(events)
        {
          var i :| 0 <= i < |events[1..]| && events[1..][i].access != Read && events[1..][i].name == n;
          assert events[1..][i] == events[i + 1];
        }
      }
      RunDefinesOnly(t1, events[1..], names);
    }
  }

  /**
    `analyze` (src/lib.rs:16-51) after parsing: walk the tree with a fresh
    tracker, then convert the final state. Every internal name and every
    loop variable is a name the tree assigns to, and the shape has one entry
    per external name.
   */
  function Analyze(tree: Stmt): (r: TemplateAnalysis)
    ensures r.internalVars <= StmtTargets(tree)
    ensures r.loopVars.Keys <= StmtTargets(tree)
    ensures r.objectShapes.Obj? && r.objectShapes.fields.Keys == r.externalVars
  {
    RunDefinesOnly(New(), StmtEvents(tree), StmtTargets(tree));
    ToAnalysis(Run(New(), StmtEvents(tree)))
  }

  /** The final tracker state of every walk satisfies the tracker invariant. */
  lemma AnalyzeValid(tree: Stmt)
    ensures Valid(Run(New(), StmtEvents(tree)))
  {
    RunValid(New(), StmtEvents(tree));
  }

  /** An expression on its own only ever adds external names and attributes: it defines nothing. */
  lemma {:induction false} ReadsDefineNothing(t: VariableTracker, events: seq<Event>)
    requires forall i :: 0 <= i < |events| ==> events[i].access == Read
    ensures var t' := Run(t, events);
            t'.internalVars == t.internalVars && t'.loopVars == t.loopVars && t'.objectAliases == t.objectAliases
    decreases |events|
  {
    if events != [] {
      ReadsDefineNothing(TrackAccess(t, events[0].name, events[0].access), events[1..]);
    }
  }

  /** The names carried by a sequence of events. */
  function EventNames(events: seq<Event>): set<string> {
    set i | 0 <= i < |events| :: events[i].name
  }

  lemma EventNamesSingle(ev: Event)
    ensures EventNames([ev]) == {ev.name}
  {
    assert [ev][0] == ev;
  }

  lemma EventNamesConcat(a: seq<Event>, b: seq<Event>)
    ensures EventNames(a + b) == EventNames(a) + EventNames(b)
  {
    forall n | n in EventNames(a + b)
      ensures n in EventNames(a) + EventNames(b)
    {
      var i :| 0 <= i < |a + b| && (a + b)[i].name == n;
      if i < |a| {
        assert a[i].name == n;
      } else {
        assert b[i - |a|].name == n;
      }
    }
    forall n | n in EventNames(a)
      ensures n in EventNames(a + b)
    {
      var i :| 0 <= i < |a| && a[i].name == n;
      assert (a + b)[i] == a[i];
    }
    forall n | n in EventNames(b)
      ensures n in EventNames(a + b)
    {
      var i :| 0 <= i < |b| && b[i].name == n;
      assert (a + b)[|a| + i] == b[i];
    }
  }

  /**
    The expression nodes `collect_var_reads` reaches from `e`: `e` itself and,
    recursively, every operand it descends into. Call, filter and test
    arguments are not part of the tree here.
   */
  function Visited(e: Expr): set<Expr>
    decreases e
  {
    {e} +
    match e
    case GetAttr(base, _) => Visited(base)
    case GetItem(base, subscript) => Visited(base) + Visited(subscript)
    case Call(callee) => Visited(callee)
    case Filter(filtered) =>
      (match filtered
       case None => {}
       case Some(x) => Visited(x))
    case Test(operand) => Visited(operand)
    case BinOp(left, right) => Visited(left) + Visited(right)
    case UnaryOp(operand) => Visited(operand)
    case List(items) => VisitedAll(items)
    case MapLit(keys, values) => VisitedAll(keys) + VisitedAll(values)
    case _ => {}
  }

  function VisitedAll(es: seq<Expr>): set<Expr>
    decreases es
  {
    if es == [] then {} else Visited(es[0]) + VisitedAll(es[1..])
  }

  /**
    What one node reads by itself, apart from its operands: a variable its
    identifier, an attribute lookup its full dotted path, and `v["k"]` the
    name `v.k`.
   */
  function NodeReads(x: Expr): set<string> {
    match x
    case Var(id) => {id}
    case GetAttr(_, _) => {GetAttributePath(x)}
    case GetItem(base, subscript) => EventNames(SubscriptRead(base, subscript))
    case _ => {}
  }

  /** Everything the nodes of `nodes` read. */
  ghost function ReadsIn(nodes: set<Expr>): set<string> {
    set x, n | x in nodes && n in NodeReads(x) :: n
  }

  lemma ReadsInUnion(a: set<Expr>, b: set<Expr>)
    ensures ReadsIn(a + b) == ReadsIn(a) + ReadsIn(b)
  {
  }

  lemma ReadsInSingle(x: Expr)
    ensures ReadsIn({x}) == NodeReads(x)
  {
  }

  /**
    `collect_var_reads` reads exactly the names the visited nodes read: no
    name is missed and none is invented.
   */
  lemma {:induction false} ExprReads(e: Expr)
    ensures EventNames(ExprEvents(e)) == ReadsIn(Visited(e))
    decreases e
  {
    ReadsInSingle(e);
    match e
    case Var(id) =>
      EventNamesSingle(Event(id, Read));
    case GetAttr(base, _) =>
      ExprReads(base);
      EventNamesSingle(Event(GetAttributePath(e), Read));
      EventNamesConcat([Event(GetAttributePath(e), Read)], ExprEvents(base));
      ReadsInUnion({e}, Visited(base));
    case GetItem(base, subscript) =>
      ExprReads(base);
      ExprReads(subscript);
      EventNamesConcat(SubscriptRead(base, subscript), ExprEvents(base));
      EventNamesConcat(SubscriptRead(base, subscript) + ExprEvents(base), ExprEvents(subscript));
      ReadsInUnion(Visited(base), Visited(subscript));
      ReadsInUnion({e}, Visited(base) + Visited(subscript));
    case Call(callee) =>
      ExprReads(callee);
      ReadsInUnion({e}, Visited(callee));
    case Filter(filtered) =>
      if filtered.Some? {
        ExprReads(filtered.value);
        ReadsInUnion({e}, Visited(filtered.value));
      }
    case Test(operand) =>
      ExprReads(operand);
      ReadsInUnion({e}, Visited(operand));
    case BinOp(left, right) =>
      ExprReads(left);
      ExprReads(right);
      EventNamesConcat(ExprEvents(left), ExprEvents(right));
      ReadsInUnion(Visited(left), Visited(right));
      ReadsInUnion({e}, Visited(left) + Visited(right));
    case UnaryOp(operand) =>
      ExprReads(operand);
      ReadsInUnion({e}, Visited(operand));
    case List(items) =>
      ExprsReads(items);
      ReadsInUnion({e}, VisitedAll(items));
    case MapLit(keys, values) =>
      ExprsReads(keys);
      ExprsReads(values);
      EventNamesConcat(ExprsEvents(keys), ExprsEvents(values));
      ReadsInUnion(VisitedAll(keys), VisitedAll(values));
      ReadsInUnion({e}, VisitedAll(keys) + VisitedAll(values));
    case Const(_) =>
    case OtherExpr =>
  }

  lemma {:induction false} ExprsReads(es: seq<Expr>)
    ensures EventNames(ExprsEvents(es)) == ReadsIn(VisitedAll(es))
    decreases es
  {
    if es != [] {
      ExprReads(es[0]);
      ExprsReads(es[1..]);
      EventNamesConcat(ExprEvents(es[0]), ExprsEvents(es[1..]));
      ReadsInUnion(Visited(es[0]), VisitedAll(es[1..]));
    }
  }
}
